=== FILE: README.md ===
# Offline command queue of a browser finance tracker, in Dafny

This project models the offline-resilient request layer of a browser-resident
personal finance tracker, together with the small pure pieces around it.

**The offline queue.** Two scripts each wrap the page's `window.apiPost`:
- app.features.js wraps every request into slot `mx_queue_v2`;
- app.extra.js wraps only `addTransaction` into slot `mx_offline_queue_v1`.

Each wrapper calls the `apiPost` it captured at load time. When that call
rejects, the wrapper appends `{when, body}` to its local-storage slot and
answers `{ok:true, offline:true}`. Each script also has a `flushQueue`:
1. Load the slot. An unreadable slot counts as empty, and an empty one returns at once.
2. Replay every entry in order through the captured inner `apiPost`.
3. Write back the entries whose replay failed again.
4. If the queue got shorter, refresh the page. The app.extra.js flush first
   re-fetches the summary through `apiPost` and caches it.

**The pure pieces.**
- The summary cache.
- The budget bar percentage and its warning class.
- The transaction filter.
- The CSV export.

**Modules.**
- `Common`: `Option`, the subsequence relation, order-preserving selection.
- `Transport`: the page's own `apiPost`. It is an oracle, a sequence of
  outcomes consumed one per call, and a `Network` object that logs what it sent.
- `Storage`: the queue and summary slots, as values and as objects. A slot
  can be unreadable (`corrupt`) or refuse writes (`full`).
- `OfflineQueue`: the value-level specification.
  - A *stack* lists the installed wrappers, innermost first.
  - `Dispatch` is one call through a stack, `Drain` the shared flush loop,
    `FlushFeatures` and `FlushExtra` the two flushes.
  - It also holds the lemmas about them.
- `Browser`: class `Page`, holding the objects. Its methods `PostVia`,
  `ApiPost`, `ReplayAll` (the replay loop), `Drain`, `FlushFeatures`,
  `FlushExtra` and `FetchAndCacheSummary` are each proved equal to their
  specification.
- `Guidelines`: `barRow`'s percentage and warning class.
- `TxFilter`: the predicate of `loadFiltered`.
- `CsvExport`: the export handler and an RFC 4180 style reader that reads the export back.

Behaviour of the code that a reader might not expect, and that the model keeps:
- The app.features.js wrapper queues every failed request, reads such as
  `summary` included, and answers them with the offline acknowledgement; one
  might expect only writes to be queued.
  `OfflineQueue.OfflineSummaryIsCached` shows the consequence: an offline
  summary fetch caches `{ok:true, offline:true}` as the summary.
- The order in which the two scripts load matters. When app.features.js
  loads first, its wrapper sits inside the app.extra.js one and catches
  every rejection, so `mx_offline_queue_v1` never grows
  (`OfflineQueue.FeaturesFirstShieldsExtra`). An offline flush of
  app.extra.js then moves its entries into `mx_queue_v2`, queues the summary
  request there too, caches the offline acknowledgement and still refreshes
  (`OfflineQueue.ExtraFlushRequeuesIntoFeatures`).
- There is no single-flight guard around the flushes: two flushes may run
  at once.
- The app.extra.js flush refreshes only when its summary fetch succeeds, not
  whenever the queue got shorter.
- A date bound of 0 (the epoch) is ignored by the filter, because it is falsy.

## Model

| member | source | states |
|---|---|---|
| Transport.Network.Post | app.features.js:40 | the inner transport: one outcome is consumed, the body is logged, and the call resolves iff the oracle answers |
| Storage.Enqueue | app.features.js:43-48 | on a healthy slot the guarded read-push-write appends exactly the new entry after the old ones, one entry longer; on an unreadable or full slot nothing changes |
| Storage.CacheRoundTrip | app.extra.js:28-37 | after a successful write the cache loads the written reply, and a later write wins; a refused write leaves what loads unchanged |
| Storage.QueueSlot.Load | app.features.js:54 | reading the slot gives its entries, or nothing when the parse throws |
| Storage.QueueSlot.Store | app.features.js:61 | the write succeeds iff the slot accepts writes, and then the slot holds exactly the given entries |
| Storage.QueueSlot.TryEnqueue | app.features.js:43-48 | the in-place enqueue leaves the slot as `Enqueue` of its old state |
| Storage.SummarySlot.LoadSummaryFromCache | app.extra.js:28-34 | null when the key is absent or unparsable, otherwise the stored reply |
| Storage.SummarySlot.TrySave | app.extra.js:37 | the guarded write of the summary; a refused write is swallowed |
| OfflineQueue.Catcher | app.extra.js:234 | the wrapper found intercepts the body and no wrapper inside it does (it is the innermost one); when none is found, no wrapper intercepts the body |
| OfflineQueue.Dispatch | app.features.js:38-50 | one call through the stack consumes one transport outcome and never touches the summary cache; the caller sees a rejection iff the transport rejects and no wrapper intercepts the body (exact effects: `DispatchAnswered`, `DispatchRejected`) |
| OfflineQueue.Replay | app.features.js:56-60 | replaying a loaded queue through any inner `apiPost` sends every entry's body once, in queue order, keeps an order-preserving subsequence of the entries, and leaves the summary cache alone (which entries are kept: `ReplayOverNetwork`) |
| OfflineQueue.Drain | app.extra.js:255-268 | a drain sends the bodies of exactly the loaded entries, in order; it reports a refresh only when the slot really got shorter; the summary cache is untouched (exact stored queue: `DrainStoresFailures`) |
| OfflineQueue.FetchSummary | app.extra.js:35-39 | the summary request consumes one transport outcome; when it resolves and the cache accepts writes, the cache then loads exactly the reply; a rejection leaves the cache unchanged |
| OfflineQueue.FlushExtra | app.extra.js:254-275 | refresh only after a drain that delivered something; the bodies sent are the loaded entries, followed by one summary request exactly when the drain delivered; a refresh with a writable cache leaves a cached summary (exact outcome: `FlushExtraOverNetwork`) |
| OfflineQueue.DispatchAnswered | app.features.js:39-41 | when the transport answers, every wrapper passes the payload through, the body is sent once and no slot changes |
| OfflineQueue.DispatchRejected | app.features.js:42-50 | when the transport rejects, the innermost intercepting wrapper queues the body once and the caller gets the offline acknowledgement; with none, the rejection reaches the caller |
| OfflineQueue.FeaturesWrapper | app.features.js:38-51 | over any inner `apiPost`: a resolved result is returned unchanged; a rejection enqueues `{when, body}` in `mx_queue_v2` and answers offline |
| OfflineQueue.ExtraWrapper | app.extra.js:232-252 | only `addTransaction` is intercepted (queued into `mx_offline_queue_v1`); every other request is forwarded with its result, rejection included |
| OfflineQueue.DispatchLeavesOthers | app.extra.js:231-232 | a call never touches the slot of a wrapper not in the stack, nor the summary cache |
| OfflineQueue.ReplayLeavesOthers | app.features.js:57-60 | replay goes through the captured inner `apiPost`, so it never enqueues into the flushing wrapper's own slot |
| OfflineQueue.ReplayOverNetwork | app.features.js:56-60 | directly over the transport, every entry is sent exactly once in FIFO order and exactly the rejected entries are kept |
| OfflineQueue.KeptIsSubsequence | app.features.js:56-60 | the kept entries are an order-preserving subsequence, never longer than the queue |
| OfflineQueue.KeptAllIffNoneDelivered | app.features.js:62 | the queue keeps its length iff no replay succeeded |
| OfflineQueue.DrainOverNetwork | app.features.js:52-65 | the flushed slot holds exactly the entries whose replay failed, in order; each entry was sent once; refresh iff some replay succeeded; the other slots are unchanged |
| OfflineQueue.DrainEmptyIsNoop | app.features.js:53-55 | an empty or unreadable slot makes the shared drain, and the app.extra.js flush under any stack, a no-op: no replay, no write, no summary fetch, no refresh |
| OfflineQueue.DrainStoresFailures | app.extra.js:254-268 | over any inner `apiPost`, the stored queue is the replay's rejected entries, a subsequence of the loaded queue, and refresh happens iff it got shorter |
| OfflineQueue.DrainWriteFailure | app.features.js:61-64 | a write-back that throws means no refresh, and the slot keeps every loaded entry, delivered ones included |
| OfflineQueue.FlushExtraOverNetwork | app.extra.js:254-275 | the slot keeps the rejected entries; refresh iff some replay succeeded and the summary fetch that follows was answered, whose reply is then cached; the summary is requested only after a delivery |
| OfflineQueue.BurstWhileOffline | app.extra.js:238-247 | N intercepted requests issued while offline are each acknowledged as offline, and the slot gains exactly those N entries in issue order |
| OfflineQueue.PartialFailure | app.features.js:56-62 | queued [a, b, c] where only b's replay fails leaves [b], sends a, b, c in order and triggers a refresh |
| OfflineQueue.OfflineAddThenReconnect | app.extra.js:232-275 | an offline `addTransaction` is acknowledged and queued once; after reconnection the flush delivers it, empties the slot, fetches and caches the summary exactly once and refreshes |
| OfflineQueue.FeaturesFirstShieldsExtra | app.features.js:37-50 | with app.features.js loaded before app.extra.js, every call resolves and the app.extra.js slot never changes |
| OfflineQueue.ExtraFlushRequeuesIntoFeatures | app.extra.js:254-275 | in that load order, an offline app.extra.js flush of one entry empties its slot, queues the entry and the summary request in `mx_queue_v2`, caches the offline acknowledgement and reports a refresh |
| OfflineQueue.OfflineSummaryIsCached | app.extra.js:35-39 | with the generic wrapper installed, an offline summary fetch resolves with the offline acknowledgement, and that is what gets cached |
| Browser.Page.PostVia | app.features.js:37-51 | the `apiPost` of the first `depth` wrappers acts on the objects exactly as `Dispatch` on the first `depth` layers |
| Browser.Page.ApiPost | app.extra.js:231-252 | the page's outermost `apiPost` acts as `Dispatch` over the whole stack |
| Browser.Page.Drain | app.features.js:53-62 | the load-replay-store sequence leaves the objects exactly as `Drain` of the old state |
| Browser.Page.ReplayAll | app.features.js:56-60 | the replay loop leaves the objects, and returns the kept entries, exactly as `Replay` of the old state |
| Browser.Page.FlushFeatures | app.features.js:52-65 | app.features.js's `flushQueue` acts on the objects as `FlushFeatures` of the old state |
| Browser.Page.FlushExtra | app.extra.js:254-275 | app.extra.js's `flushQueue` acts on the objects as `FlushExtra` of the old state |
| Browser.Page.FetchAndCacheSummary | app.extra.js:35-39 | the summary request goes through the whole stack and, when it resolves, the reply is cached |
| Guidelines.Round | app.extra.js:70 | `Math.round` gives the integer within half a unit, halves rounding up |
| Guidelines.Percent | app.extra.js:70 | a non-positive limit shows 0%, and the percentage never exceeds 100 |
| Guidelines.PercentBounds | app.extra.js:70 | with a positive limit: no spending shows at least 0%, spending the whole limit shows 100%, and below the clamp the percentage is the rounded exact ratio |
| Guidelines.PercentMonotone | app.extra.js:70 | spending more never shows a smaller percentage |
| Guidelines.WarnClassName | app.extra.js:71 | the class written is `text-bad` iff the percentage is at least 90, `text-muted` iff 70 to 89, `text-ok` iff below 70 |
| Guidelines.WarnClass | app.extra.js:71 | `text-bad` iff at least 90, `text-muted` iff 70 to 89, `text-ok` iff below 70 |
| Guidelines.BarFacts | app.extra.js:69-71 | no limit gives 0% in the calm colour; at or over the limit gives 100% in the alarm colour; the colour never calms as spending grows |
| TxFilter.TrimStart | app.extra.js:164 | removes exactly the leading JavaScript white space |
| TxFilter.TrimEnd | app.extra.js:164 | removes exactly the trailing JavaScript white space |
| TxFilter.Lower | app.extra.js:164 | on ASCII: keeps the length, leaves no ASCII capital, changes a character iff it is an ASCII capital, and then to its small letter |
| TxFilter.LowerIdempotent | app.extra.js:164 | lower-casing twice is lower-casing once |
| TxFilter.IncludesIff | app.extra.js:171 | `includes` holds iff the query occurs at some index of the note |
| TxFilter.Matches | app.extra.js:169-176 | blank criteria match every row; a row matching two truthy bounds needs `from <= to`; with a positive lower bound a row without timestamp never matches |
| TxFilter.Filter | app.extra.js:169-177 | the result is an order-preserving subsequence of the rows; every kept row matches and every matching row is kept |
| TxFilter.FilterAppend | app.extra.js:169-177 | filtering commutes with concatenation, so it never reorders rows |
| TxFilter.BlankMatches | app.extra.js:164-176 | a blank search, a blank category and no truthy date bound match any row |
| TxFilter.NoCriteriaKeepsAll | app.extra.js:164-176 | a blank search, a blank category and no truthy date bound keep every row |
| TxFilter.SearchIgnoresCase | app.extra.js:164-171 | a query matches a note regardless of letter case and of white space around the query |
| TxFilter.FoundIgnoringCase | app.extra.js:170-171 | a slice of the note equal to the query up to letter case makes `includes` succeed |
| TxFilter.LowerSlice | app.extra.js:170 | lower-casing commutes with taking a slice |
| CsvExport.Quote | app.extra.js:214 | a field is changed (wrapped in quotes) iff it holds a double quote, a comma or a line feed |
| CsvExport.EscapeLength | app.extra.js:213 | `replace(/"/g, '""')` adds exactly one character per double quote |
| CsvExport.EscapeNoQuote | app.extra.js:213 | doubling quotes changes nothing in text without quotes |
| CsvExport.EscapeKeepsSpecials | app.extra.js:213 | doubling quotes neither adds nor removes quotes, commas or line feeds |
| CsvExport.QuotedFieldRoundTrip | app.extra.js:213-214 | a note that gets quoted reads back as itself through the quoted-field reader |
| CsvExport.BareFieldRoundTrip | app.extra.js:213-214 | a note written as it is reads back as itself through the bare-field reader |
| CsvExport.FieldRoundTrip | app.extra.js:213-214 | any text, escaped then quoted as the note is, reads back as itself |
| CsvExport.RecordRoundTrip | app.extra.js:214 | a line of escaped and quoted fields reads back as exactly those fields |
| CsvExport.DocumentRoundTrip | app.extra.js:210-215 | records of two or more fields each, rendered and joined with line feeds, read back as the records, in order |
| CsvExport.LinesAreRendered | app.extra.js:211-214 | for rows whose fields other than the note hold no quote (with or without a timestamp), each row's line is its record with every field escaped and quoted, in row order |
| CsvExport.HeaderIsRendered | app.extra.js:209-210 | the header line needs no escaping or quoting |
| CsvExport.ExportIsRendered | app.extra.js:207-215 | for rows with timestamps whose fields other than the note hold no quote, the export is the rendering of the header and the rows' records |
| CsvExport.ExportRoundTrip | app.extra.js:209-215 | such an export succeeds and reads back as the header, then each row's time, type, category, amount and note, in order |
| CsvExport.Export | app.extra.js:207-215 | the export fails with "nothing to export" iff there are no rows, and with an invalid time iff the list is non-empty and some row's timestamp is absent or empty (`None`); a `null` timestamp is the epoch `Some(0)` and exports (content: `ExportIsRendered`, `ExportRoundTrip`, `NullTimestampsExport`) |
| CsvExport.NullTimestampsExport | app.extra.js:207-212 | rows whose timestamps are all `null` still export, because `new Date(null)` is the epoch; each line's time is the epoch's ISO text |
| CsvExport.ExportEscapedErrors | app.extra.js:207-212 | the corrected export fails on exactly the lists the export fails on, with the same error |
| CsvExport.QuoteInCategoryBreaksLine | app.extra.js:211-214 | as written, a category `"` is quoted without doubling, and the line reads back as 3 fields instead of 5 |
| CsvExport.ExportEscapedRoundTrip | app.extra.js:209-215 | escaping every field makes every export with timestamps read back exactly |

## Findings

| source | as written | input that shows it | evidently intended | confidence | as-written member | corrected member |
|---|---|---|---|---|---|---|
| app.extra.js:213-214 | only the note has its `"` doubled, but every field containing `"` is wrapped in quotes | a row whose category is `"`, with plain time, type, amount and note: its line reads back as 3 fields, the third swallowing the amount and the note | double the quotes of every field before quoting, so that the file reads back as the rows | low (not executed) | CsvExport.QuoteInCategoryBreaksLine | CsvExport.ExportEscapedRoundTrip |

The page's category selects (app.features.js:233, 305 and 427) put the
name inside `value="..."`, which ends at the first double quote, so a
transaction added through the page never carries one in its category; such
a row has to reach the server some other way. The corrected definition is `CsvExport.ExportEscaped`. `CsvExport.Export`
keeps the code's behaviour. `CsvExport.ExportRoundTrip` therefore requires
(`Exportable`) that the fields other than the note hold no double quote.

## Left out

- CsvExport.ExportRoundTrip: requires every row to be `Exportable` (no `"` outside the note), because the export as written does not read back otherwise (see Findings).
- OfflineQueue.DispatchLeavesOthers: shows that a slot is untouched only for wrappers absent from the stack; loading the same script twice is not modelled further.
- OfflineQueue.BurstWhileOffline: stated for an oracle that rejects every remaining call, with a readable and writable slot.
- Toasts, `console.warn` and the DOM are left out: the painting of the bars, the transaction list and the export download. Only the values they show are modelled.
- `paintGuidelines` and `window.refresh` are left out. A flag reports whether the refresh is reached. A `paintGuidelines` that throws, or a `refresh` that is not a function, is not modelled.
- Event listeners (`online`, `focus`, `DOMContentLoaded`, clicks) and the interleaving of asynchronous handlers are left out. Every operation runs to completion on its own, so overlapping flushes are not modelled.
- CsvExport.Export: a timestamp is an integer or missing. `None` stands for an absent or empty timestamp (an invalid date, so `toISOString` throws), and a `null` timestamp for the epoch `Some(0)`. Timestamp strings that `new Date` cannot parse are not modelled separately; they fall under `None`.
- `Date.now()` is a parameter (`now`, one value per operation). `new Date(...).toISOString()` is a parameter (`iso`). The parsing of the date inputs into bounds is outside the filter.
- JSON encoding and decoding are abstracted: a slot holds decoded values. A slot whose JSON parses to a non-array is not modelled; it is treated like any value that cannot be read.
- A `null` or non-object request body is not modelled; requests are `{action, parameters}` values.
- The server and the network are an oracle of outcomes. Timeouts and the contents of server replies are not modelled, and an exhausted oracle keeps rejecting.
- TxFilter.Lower: models `toLowerCase` on the ASCII letters only; every other character is kept, so non-ASCII capitals (`É`, `Ä`, and `İ`, which lower-cases to two code units) are not lowered. The app's own text is Arabic, which has no letter case.
- Amounts and limits are exact reals, so NaN, infinities and floating-point rounding of `used / limit * 100` are not modelled. The row amount is kept as the text the export writes.
- The purchase-list workflow, settings, charts and the remaining UI code of both scripts are not part of this model.

=== FILE: browser.dfy ===
/**
 * The page at run time: its transport, its three storage slots and the
 * wrappers installed over `window.apiPost`, in load order. Every method is
 * proved against the value-level specification in module OfflineQueue.
 */
module Browser {
  import opened Common
  import opened Transport
  import opened Storage
  import opened OfflineQueue

  class Page {
    /** The installed wrappers, innermost (first loaded) first. */
    const stack: seq<Layer>
    const net: Network
    const featuresSlot: QueueSlot
    const extraSlot: QueueSlot
    const summarySlot: SummarySlot

    /** The two queue keys are distinct slots. */
    ghost predicate Valid() {
      featuresSlot != extraSlot
    }

    /** The abstract state of everything the queue layer touches. */
    ghost function Snapshot(): World
      reads net, featuresSlot, extraSlot, summarySlot
    {
      World(net.State(), featuresSlot.State(), extraSlot.State(), summarySlot.State())
    }

    constructor (stack: seq<Layer>, w: World)
      ensures Valid() && this.stack == stack && Snapshot() == w
    {
      this.stack := stack;
      net := new Network(w.wire);
      featuresSlot := new QueueSlot(w.features);
      extraSlot := new QueueSlot(w.extra);
      summarySlot := new SummarySlot(w.summary);
    }

    /**
     * The `apiPost` in force once the first `depth` wrappers were installed:
     * depth 0 is the page's own transport, and the wrapper at index k
     * captured `PostVia(k)` as its `_apiPost`.
     */
    method PostVia(depth: nat, body: Body, now: int) returns (r: Response)
      requires Valid() && depth <= |stack|
      modifies net, featuresSlot, extraSlot
      ensures (r, Snapshot()) == Dispatch(stack[..depth], body, now, old(Snapshot()))
      decreases depth
    {
      if depth == 0 {
        r := net.Post(body);
      } else {
        var top := stack[depth - 1];
        assert stack[..depth][..depth - 1] == stack[..depth - 1];
        r := PostVia(depth - 1, body, now);
        if Intercepts(top, body) && r.Failed? {
          var slot := if top == Features then featuresSlot else extraSlot;
          slot.TryEnqueue(Entry(now, body));
          r := Delivered(OfflineAck);
        }
      }
    }

    /** `window.apiPost` as the page's other code calls it: through every wrapper. */
    method ApiPost(body: Body, now: int) returns (r: Response)
      requires Valid()
      modifies net, featuresSlot, extraSlot
      ensures (r, Snapshot()) == Dispatch(stack, body, now, old(Snapshot()))
    {
      assert stack[..|stack|] == stack;
      r := PostVia(|stack|, body, now);
    }

    /**
     * `flushQueue` of the app.features.js wrapper installed at index
     * `depth`; `refreshed` says whether `window.refresh` is called.
     */
    method FlushFeatures(depth: nat, now: int) returns (refreshed: bool)
      requires Valid() && depth < |stack| && stack[depth] == Features
      modifies net, featuresSlot, extraSlot
      ensures (refreshed, Snapshot()) == OfflineQueue.FlushFeatures(stack[..depth], now, old(Snapshot()))
    {
      refreshed := Drain(depth, Features, now);
    }

    /**
     * `flushQueue` of the app.extra.js wrapper installed at index `depth`;
     * `refreshed` says whether the summary was repainted and
     * `window.refresh` called.
     */
    method FlushExtra(depth: nat, now: int) returns (refreshed: bool)
      requires Valid() && depth < |stack| && stack[depth] == Extra
      modifies net, featuresSlot, extraSlot, summarySlot
      ensures (refreshed, Snapshot()) == OfflineQueue.FlushExtra(stack[..depth], stack, now, old(Snapshot()))
    {
      var delivered := Drain(depth, Extra, now);
      if delivered {
        var r := FetchAndCacheSummary(now);
        refreshed := r.Delivered?;
      } else {
        refreshed := false;
      }
    }

    /** `fetchAndCacheSummary()`: a rejection propagates to the caller. */
    method FetchAndCacheSummary(now: int) returns (r: Response)
      requires Valid()
      modifies net, featuresSlot, extraSlot, summarySlot
      ensures (r, Snapshot()) == FetchSummary(stack, now, old(Snapshot()))
    {
      r := ApiPost(SummaryRequest, now);
      if r.Delivered? {
        summarySlot.TrySave(r.reply);
      }
    }

    /** The load-replay-store loop shared by both `flushQueue`s. */
    method Drain(depth: nat, l: Layer, now: int) returns (delivered: bool)
      requires Valid() && depth < |stack| && stack[depth] == l
      modifies net, featuresSlot, extraSlot
      ensures (delivered, Snapshot()) == OfflineQueue.Drain(stack[..depth], l, now, old(Snapshot()))
    {
      var slot := if l == Features then featuresSlot else extraSlot;
      var loaded := slot.Load();
      var q := if loaded.Some? then loaded.value else [];
      if q == [] {
        return false;
      }
      var rest := ReplayAll(depth, q, now);
      var stored := slot.Store(rest);
      delivered := stored && |q| != |rest|;
    }

    /** The `for` loop of `flushQueue`: post each entry in turn, keeping the ones that fail. */
    method ReplayAll(depth: nat, q: seq<Entry>, now: int) returns (rest: seq<Entry>)
      requires Valid() && depth <= |stack|
      modifies net, featuresSlot, extraSlot
      ensures (rest, Snapshot()) == Replay(stack[..depth], q, now, old(Snapshot()))
    {
      rest := [];
      var i := 0;
      while i < |q|
        invariant 0 <= i <= |q|
        invariant (rest, Snapshot()) == Replay(stack[..depth], q[..i], now, old(Snapshot()))
      {
        assert q[..i + 1][..i] == q[..i];
        var r := PostVia(depth, q[i].body, now);
        if r.Failed? {
          rest := rest + [q[i]];
        }
        i := i + 1;
      }
      assert q[..|q|] == q;
    }
  }
}

=== FILE: common.dfy ===
/** Small definitions shared by the rest of the model. */
module Common {

  /** A value that may be absent. */
  datatype Option<+T> = None | Some(value: T)

  /**
   * `sub` is `s` with some elements removed and the rest kept in their
   * original order. Defined from the back, as the queue and the filter
   * are built by appending.
   */
  predicate IsSubsequence<T(==)>(sub: seq<T>, s: seq<T>)
    decreases |s|
  {
    if sub == [] then true
    else if s == [] then false
    else if sub[|sub| - 1] == s[|s| - 1] && IsSubsequence(sub[..|sub| - 1], s[..|s| - 1]) then true
    else IsSubsequence(sub, s[..|s| - 1])
  }

  /** A subsequence is never longer than the sequence it is taken from. */
  lemma {:induction false} SubsequenceLength<T>(sub: seq<T>, s: seq<T>)
    requires IsSubsequence(sub, s)
    ensures |sub| <= |s|
    decreases |s|
  {
    if sub != [] {
      if sub[|sub| - 1] == s[|s| - 1] && IsSubsequence(sub[..|sub| - 1], s[..|s| - 1]) {
        SubsequenceLength(sub[..|sub| - 1], s[..|s| - 1]);
      } else {
        SubsequenceLength(sub, s[..|s| - 1]);
      }
    }
  }

  /** Appending the same element to both sides keeps the relation. */
  lemma SubsequenceExtend<T>(sub: seq<T>, s: seq<T>, x: T, kept: bool)
    requires IsSubsequence(sub, s)
    ensures IsSubsequence(if kept then sub + [x] else sub, s + [x])
  {
    assert (s + [x])[..|s|] == s;
    if kept {
      assert (sub + [x])[..|sub|] == sub;
    } else if sub != [] {
      assert (s + [x])[..|s + [x]| - 1] == s;
    }
  }

  /**
   * The elements of `s` that satisfy `keep`, in their original order: a
   * subsequence of `s` whose elements all satisfy `keep` and that holds
   * every element of `s` that does.
   */
  function Select<T>(s: seq<T>, keep: T -> bool): (r: seq<T>)
    ensures IsSubsequence(r, s)
    ensures forall i :: 0 <= i < |r| ==> keep(r[i])
    ensures forall i :: 0 <= i < |s| && keep(s[i]) ==> s[i] in r
    decreases |s|
  {
    if s == [] then []
    else
      var init, last := s[..|s| - 1], s[|s| - 1];
      var r := Select(init, keep);
      assert init + [last] == s;
      SubsequenceExtend(r, init, last, keep(last));
      assert forall i :: 0 <= i < |init| ==> s[i] == init[i];
      if keep(last) then r + [last] else r
  }

  /** Selecting keeps everything when every element satisfies `keep`. */
  lemma {:induction false} SelectAll<T>(s: seq<T>, keep: T -> bool)
    requires forall i :: 0 <= i < |s| ==> keep(s[i])
    ensures Select(s, keep) == s
    decreases |s|
  {
    if s != [] {
      SelectAll(s[..|s| - 1], keep);
      assert keep(s[|s| - 1]);
      assert s[..|s| - 1] + [s[|s| - 1]] == s;
    }
  }

  /** Selecting commutes with concatenation: it never reorders elements. */
  lemma {:induction false} SelectAppend<T>(a: seq<T>, b: seq<T>, keep: T -> bool)
    ensures Select(a + b, keep) == Select(a, keep) + Select(b, keep)
    decreases |b|
  {
    if b == [] {
      assert a + b == a;
    } else {
      SelectAppend(a, b[..|b| - 1], keep);
      assert (a + b)[..|a + b| - 1] == a + b[..|b| - 1];
    }
  }
}

=== FILE: csv_export.dfy ===
/**
 * The CSV export of the filtered transactions (the export button handler
 * in app.extra.js). Each row becomes `timestamp,type,category,amount,note`;
 * the note has its double quotes doubled, and every field that contains a
 * double quote, a comma or a line feed is wrapped in double quotes. The
 * partner of the export is an RFC 4180 style reader, `ParseDocument`, and
 * the main result is that it reads the export back to the rows' fields.
 */
module CsvExport {
  import opened Common
  import opened TxFilter

  const HeaderFields: seq<string> := ["timestamp", "type", "category", "amount", "note"]

  /** Why the handler produces no file. */
  datatype ExportError =
    | NothingToExport   // the `alert` for an empty result list
    | InvalidTime       // `toISOString` throws on a row whose timestamp is absent or empty

  datatype Result = Ok(csv: string) | Err(error: ExportError)

  /** `s.replace(/"/g, '""')`. */
  function Escape(s: string): string
    decreases |s|
  {
    if s == "" then ""
    else (if s[0] == '"' then "\"\"" else [s[0]]) + Escape(s[1..])
  }

  /** `/[",\n]/.test(s)`. */
  predicate NeedsQuotes(s: string) {
    '"' in s || ',' in s || '\n' in s
  }

  /** The field as written: wrapped in double quotes iff it needs them. */
  function Quote(s: string): (r: string)
    ensures r != s <==> NeedsQuotes(s)
  {
    if NeedsQuotes(s) then "\"" + s + "\"" else s
  }

  function QuoteAll(fs: seq<string>): (r: seq<string>)
    ensures |r| == |fs|
  {
    seq(|fs|, i requires 0 <= i < |fs| => Quote(fs[i]))
  }

  function EscapeAll(fs: seq<string>): (r: seq<string>)
    ensures |r| == |fs|
  {
    seq(|fs|, i requires 0 <= i < |fs| => Escape(fs[i]))
  }

  /** `fields.join(sep)`. */
  function Join(fields: seq<string>, sep: char): string
    decreases |fields|
  {
    if fields == [] then ""
    else if |fields| == 1 then fields[0]
    else fields[0] + [sep] + Join(fields[1..], sep)
  }

  /** The values of one line before quoting; `iso` is the row's `toISOString()`. */
  function RowFields(r: Tx, iso: string): seq<string> {
    [iso, r.kind, r.category, r.amount, Escape(r.note)]
  }

  function Line(r: Tx, iso: string): string {
    Join(QuoteAll(RowFields(r, iso)), ',')
  }

  function Lines(rows: seq<Tx>, iso: int -> string): (ls: seq<string>)
    ensures |ls| == |rows|
    decreases |rows|
  {
    if rows == [] then [] else [Line(rows[0], iso(Stamp(rows[0])))] + Lines(rows[1..], iso)
  }

  /**
   * The export: nothing for an empty list, an error when a row has no
   * timestamp, otherwise the header line followed by one line per row,
   * joined with line feeds. `iso` stands for `new Date(t).toISOString()`.
   */
  function Export(rows: seq<Tx>, iso: int -> string): (res: Result)
    ensures res == Err(NothingToExport) <==> rows == []
    ensures res == Err(InvalidTime) <==> rows != [] && exists i :: 0 <= i < |rows| && rows[i].timestamp.None?
  {
    Assemble(rows, Lines(rows, iso))
  }

  /** The checks of the handler, then the header line and `lines` joined with line feeds. */
  function Assemble(rows: seq<Tx>, lines: seq<string>): Result {
    if rows == [] then Err(NothingToExport)
    else if exists i :: 0 <= i < |rows| && rows[i].timestamp.None? then Err(InvalidTime)
    else Ok(Join([Join(HeaderFields, ',')] + lines, '\n'))
  }

  /**
   * The export as evidently intended: every field, not only the note, has
   * its double quotes doubled before it is quoted.
   */
  function ExportEscaped(rows: seq<Tx>, iso: int -> string): Result {
    Assemble(rows, Render(Records(rows, iso)))
  }

  // ----- The reader -----

  /** An unquoted field: everything up to the next comma, line feed or the end. */
  function ParseBare(s: string): (p: (string, string))
    ensures |p.1| <= |s|
    ensures p.1 == "" || p.1[0] == ',' || p.1[0] == '\n'
    decreases |s|
  {
    if s == "" || s[0] == ',' || s[0] == '\n' then ("", s)
    else
      var (f, r) := ParseBare(s[1..]);
      ([s[0]] + f, r)
  }

  /** The inside of a quoted field, after its opening quote: `""` stands for `"`. */
  function ParseQuoted(s: string): (p: (string, string))
    ensures |p.1| <= |s|
    decreases |s|
  {
    if s == "" then ("", "")
    else if s[0] == '"' then
      if |s| > 1 && s[1] == '"' then
        var (f, r) := ParseQuoted(s[2..]);
        ("\"" + f, r)
      else ("", s[1..])
    else
      var (f, r) := ParseQuoted(s[1..]);
      ([s[0]] + f, r)
  }

  /** One field and what follows it. */
  function ParseField(s: string): (p: (string, string))
    ensures |p.1| <= |s|
    ensures s != "" ==> |p.1| < |s| || (p.1 != "" && (p.1[0] == ',' || p.1[0] == '\n'))
  {
    if s != "" && s[0] == '"' then ParseQuoted(s[1..]) else ParseBare(s)
  }

  /** The fields of one record and the text after its line feed. */
  function ParseRecord(s: string): (p: (seq<string>, string))
    ensures |p.1| <= |s|
    ensures s != "" ==> |p.1| < |s|
    decreases |s|
  {
    var (f, r) := ParseField(s);
    if r != "" && r[0] == ',' then
      var (fs, r2) := ParseRecord(r[1..]);
      ([f] + fs, r2)
    else if r != "" && r[0] == '\n' then ([f], r[1..])
    else ([f], r)
  }

  /** The records of a whole document. */
  function ParseDocument(s: string): seq<seq<string>>
    decreases |s|
  {
    if s == "" then []
    else
      var (rec, r) := ParseRecord(s);
      [rec] + ParseDocument(r)
  }

  // ----- Round trip -----

  /** Escaping adds exactly one character for each double quote. */
  lemma {:induction false} EscapeLength(s: string)
    ensures |Escape(s)| == |s| + multiset(s)['"']
    decreases |s|
  {
    if s != "" {
      EscapeLength(s[1..]);
      assert s == [s[0]] + s[1..];
    }
  }

  /** Escaping changes nothing in text without double quotes. */
  lemma {:induction false} EscapeNoQuote(s: string)
    requires '"' !in s
    ensures Escape(s) == s
    decreases |s|
  {
    if s != "" {
      EscapeNoQuote(s[1..]);
      assert [s[0]] + s[1..] == s;
    }
  }

  /** Escaping neither adds nor removes quotes, commas or line feeds. */
  lemma {:induction false} EscapeKeepsSpecials(s: string)
    ensures '"' in Escape(s) <==> '"' in s
    ensures ',' in Escape(s) <==> ',' in s
    ensures '\n' in Escape(s) <==> '\n' in s
    decreases |s|
  {
    if s != "" {
      EscapeKeepsSpecials(s[1..]);
      var head := if s[0] == '"' then "\"\"" else [s[0]];
      assert Escape(s) == head + Escape(s[1..]);
      assert s == [s[0]] + s[1..];
    }
  }

  /** Reading an escaped text and its closing quote gives the text back. */
  lemma {:induction false} QuotedRoundTrip(n: string, rest: string)
    requires rest == "" || rest[0] != '"'
    ensures ParseQuoted(Escape(n) + "\"" + rest) == (n, rest)
    decreases |n|
  {
    var s := Escape(n) + "\"" + rest;
    if n == "" {
      assert s == "\"" + rest;
    } else {
      QuotedRoundTrip(n[1..], rest);
      if n[0] == '"' {
        assert s == "\"\"" + (Escape(n[1..]) + "\"" + rest);
        assert s[2..] == Escape(n[1..]) + "\"" + rest;
      } else {
        assert s == [n[0]] + (Escape(n[1..]) + "\"" + rest);
        assert s[1..] == Escape(n[1..]) + "\"" + rest;
      }
      assert [n[0]] + n[1..] == n;
    }
  }

  /** Reading an unquoted field stops at the separator that follows it. */
  lemma {:induction false} BareRoundTrip(x: string, rest: string)
    requires ',' !in x && '\n' !in x
    requires rest == "" || rest[0] == ',' || rest[0] == '\n'
    ensures ParseBare(x + rest) == (x, rest)
    decreases |x|
  {
    if x != "" {
      BareRoundTrip(x[1..], rest);
      assert (x + rest)[1..] == x[1..] + rest;
      assert [x[0]] + x[1..] == x;
    } else {
      assert x + rest == rest;
    }
  }

  /** Any text, escaped then quoted as the export does, reads back as itself. */
  lemma FieldRoundTrip(n: string, rest: string)
    requires rest == "" || rest[0] == ',' || rest[0] == '\n'
    ensures ParseField(Quote(Escape(n)) + rest) == (n, rest)
  {
    if NeedsQuotes(Escape(n)) {
      QuotedFieldRoundTrip(n, rest);
    } else {
      BareFieldRoundTrip(n, rest);
    }
  }

  /** A field that gets quoted reads back through `ParseQuoted`. */
  lemma QuotedFieldRoundTrip(n: string, rest: string)
    requires rest == "" || rest[0] == ',' || rest[0] == '\n'
    requires NeedsQuotes(Escape(n))
    ensures ParseField(Quote(Escape(n)) + rest) == (n, rest)
  {
    var e := Escape(n);
    assert Quote(e) + rest == "\"" + (e + "\"" + rest);
    QuotedRoundTrip(n, rest);
  }

  /** A field that is written as it is reads back through `ParseBare`. */
  lemma BareFieldRoundTrip(n: string, rest: string)
    requires rest == "" || rest[0] == ',' || rest[0] == '\n'
    requires !NeedsQuotes(Escape(n))
    ensures ParseField(Quote(Escape(n)) + rest) == (n, rest)
  {
    EscapeKeepsSpecials(n);
    EscapeNoQuote(n);
    if n != "" {
      assert (n + rest)[0] == n[0];
    } else {
      assert n + rest == rest;
    }
    BareRoundTrip(n, rest);
  }

  /** A record ends at a field followed by a line feed or the end of the text. */
  lemma ParseRecordLast(s: string, f: string, tail: string)
    requires tail == "" || tail[0] == '\n'
    requires ParseField(s) == (f, tail)
    ensures ParseRecord(s) == ([f], if tail == "" then "" else tail[1..])
  {
  }

  /** A field followed by a comma starts a longer record. */
  lemma ParseRecordCons(s: string, f: string, more: string)
    requires ParseField(s) == (f, "," + more)
    ensures ParseRecord(s) == ([f] + ParseRecord(more).0, ParseRecord(more).1)
  {
    assert ("," + more)[1..] == more;
  }

  /** A line built from any fields reads back as exactly those fields. */
  lemma {:induction false} RecordRoundTrip(fs: seq<string>, tail: string)
    requires fs != []
    requires tail == "" || tail[0] == '\n'
    ensures ParseRecord(Join(QuoteAll(EscapeAll(fs)), ',') + tail) == (fs, if tail == "" then "" else tail[1..])
    decreases |fs|
  {
    if |fs| == 1 {
      RecordOfOne(fs[0], tail);
      assert fs == [fs[0]];
    } else {
      RecordRoundTrip(fs[1..], tail);
      RecordOfMore(fs, tail);
    }
  }

  lemma RecordOfOne(f: string, tail: string)
    requires tail == "" || tail[0] == '\n'
    ensures ParseRecord(Join(QuoteAll(EscapeAll([f])), ',') + tail) == ([f], if tail == "" then "" else tail[1..])
  {
    var s := Join(QuoteAll(EscapeAll([f])), ',') + tail;
    assert s == Quote(Escape(f)) + tail;
    FieldRoundTrip(f, tail);
    ParseRecordLast(s, f, tail);
  }

  /** Splitting off the first of several joined fields. */
  lemma JoinCons(xs: seq<string>, sep: char, tail: string)
    requires |xs| >= 2
    ensures Join(xs, sep) + tail == xs[0] + ([sep] + (Join(xs[1..], sep) + tail))
  {
  }

  lemma RecordOfMore(fs: seq<string>, tail: string)
    requires |fs| >= 2
    requires ParseRecord(Join(QuoteAll(EscapeAll(fs[1..])), ',') + tail) == (fs[1..], if tail == "" then "" else tail[1..])
    ensures ParseRecord(Join(QuoteAll(EscapeAll(fs)), ',') + tail) == (fs, if tail == "" then "" else tail[1..])
  {
    EncodedCons(fs, tail);
    FieldBeforeRecord(fs[0], Join(QuoteAll(EscapeAll(fs[1..])), ',') + tail);
    assert [fs[0]] + fs[1..] == fs;
  }

  /** The encoded line of several fields: the first field, a comma, the rest. */
  lemma EncodedCons(fs: seq<string>, tail: string)
    requires |fs| >= 2
    ensures Join(QuoteAll(EscapeAll(fs)), ',') + tail
         == Quote(Escape(fs[0])) + ([','] + (Join(QuoteAll(EscapeAll(fs[1..])), ',') + tail))
  {
    var enc := QuoteAll(EscapeAll(fs));
    assert enc[1..] == QuoteAll(EscapeAll(fs[1..]));
    JoinCons(enc, ',', tail);
  }

  /** An encoded field and a comma in front of a record add that field to it. */
  lemma FieldBeforeRecord(f: string, more: string)
    ensures ParseRecord(Quote(Escape(f)) + ([','] + more)) == ([f] + ParseRecord(more).0, ParseRecord(more).1)
  {
    FieldRoundTrip(f, "," + more);
    ParseRecordCons(Quote(Escape(f)) + ([','] + more), f, more);
  }

  /** The lines of a document: each record's fields escaped, quoted and joined. */
  function Render(recs: seq<seq<string>>): (ls: seq<string>)
    ensures |ls| == |recs|
    decreases |recs|
  {
    if recs == [] then [] else [Join(QuoteAll(EscapeAll(recs[0])), ',')] + Render(recs[1..])
  }

  /** A document of records with at least two fields each reads back as those records. */
  lemma {:induction false} DocumentRoundTrip(recs: seq<seq<string>>)
    requires forall i :: 0 <= i < |recs| ==> |recs[i]| >= 2
    ensures ParseDocument(Join(Render(recs), '\n')) == recs
    decreases |recs|
  {
    if |recs| == 1 {
      DocumentOfOne(recs);
    } else if |recs| > 1 {
      DocumentRoundTrip(recs[1..]);
      DocumentOfMore(recs);
    }
  }

  lemma DocumentOfOne(recs: seq<seq<string>>)
    requires |recs| == 1 && |recs[0]| >= 2
    ensures ParseDocument(Join(Render(recs), '\n')) == recs
  {
    var ls := Render(recs);
    assert ls[0] == Join(QuoteAll(EscapeAll(recs[0])), ',');
    var doc := Join(ls, '\n');
    assert doc == ls[0] + "";
    RenderedLineNonEmpty(recs[0]);
    RecordRoundTrip(recs[0], "");
    RecordThenDocument(doc, recs[0], "");
    assert [recs[0]] == recs;
  }

  lemma DocumentOfMore(recs: seq<seq<string>>)
    requires |recs| >= 2 && |recs[0]| >= 2
    requires ParseDocument(Join(Render(recs[1..]), '\n')) == recs[1..]
    ensures ParseDocument(Join(Render(recs), '\n')) == recs
  {
    var line := Join(QuoteAll(EscapeAll(recs[0])), ',');
    var rest := Join(Render(recs[1..]), '\n');
    RenderedCons(recs);
    RenderedLineNonEmpty(recs[0]);
    RecordRoundTrip(recs[0], "\n" + rest);
    assert ("\n" + rest)[1..] == rest;
    RecordThenDocument(line + ("\n" + rest), recs[0], rest);
    assert [recs[0]] + recs[1..] == recs;
  }

  /** The document of several records: the first line, a line feed, the rest. */
  lemma RenderedCons(recs: seq<seq<string>>)
    requires |recs| >= 2
    ensures Join(Render(recs), '\n')
         == Join(QuoteAll(EscapeAll(recs[0])), ',') + ("\n" + Join(Render(recs[1..]), '\n'))
  {
    var ls := Render(recs);
    assert ls[0] == Join(QuoteAll(EscapeAll(recs[0])), ',');
    assert ls[1..] == Render(recs[1..]);
    assert Join(ls, '\n') == ls[0] + ['\n'] + Join(ls[1..], '\n');
  }

  /** A document starts with its first record, then the rest follows. */
  lemma RecordThenDocument(s: string, rec: seq<string>, after: string)
    requires s != "" && ParseRecord(s) == (rec, after)
    ensures ParseDocument(s) == [rec] + ParseDocument(after)
  {
  }

  /** A line of two or more fields is never empty: it holds a comma. */
  lemma RenderedLineNonEmpty(rec: seq<string>)
    requires |rec| >= 2
    ensures Join(QuoteAll(EscapeAll(rec)), ',') != ""
  {
    var enc := QuoteAll(EscapeAll(rec));
    JoinCons(enc, ',', "");
  }

  /** What the export writes for a row, before escaping and quoting. */
  function Record(r: Tx, iso: int -> string): seq<string> {
    [iso(Stamp(r)), r.kind, r.category, r.amount, r.note]
  }

  function Records(rows: seq<Tx>, iso: int -> string): (recs: seq<seq<string>>)
    ensures |recs| == |rows|
    ensures forall i :: 0 <= i < |rows| ==> recs[i] == Record(rows[i], iso)
    decreases |rows|
  {
    if rows == [] then [] else [Record(rows[0], iso)] + Records(rows[1..], iso)
  }

  /** Only the note is escaped: the other fields must not contain a double quote. */
  predicate Exportable(r: Tx, iso: int -> string) {
    r.timestamp.Some? && NoQuoteOutsideNote(r, iso)
  }

  /** None of the fields written without escaping holds a double quote. */
  predicate NoQuoteOutsideNote(r: Tx, iso: int -> string) {
    '"' !in iso(Stamp(r)) && '"' !in r.kind && '"' !in r.category && '"' !in r.amount
  }

  lemma {:induction false} LinesAreRendered(rows: seq<Tx>, iso: int -> string)
    requires forall i :: 0 <= i < |rows| ==> NoQuoteOutsideNote(rows[i], iso)
    ensures Lines(rows, iso) == Render(Records(rows, iso))
    decreases |rows|
  {
    if rows != [] {
      var r := rows[0];
      EscapeNoQuote(iso(Stamp(r)));
      EscapeNoQuote(r.kind);
      EscapeNoQuote(r.category);
      EscapeNoQuote(r.amount);
      assert EscapeAll(Record(r, iso)) == RowFields(r, iso(Stamp(r)));
      LinesAreRendered(rows[1..], iso);
      assert Records(rows, iso)[1..] == Records(rows[1..], iso);
    }
  }

  /** The header needs neither escaping nor quoting. */
  lemma HeaderIsRendered()
    ensures QuoteAll(EscapeAll(HeaderFields)) == HeaderFields
  {
    HeaderPlain();
    PlainFields(HeaderFields);
  }

  lemma HeaderPlain()
    ensures forall i :: 0 <= i < |HeaderFields| ==> Plain(HeaderFields[i])
  {
  }

  lemma PlainFields(fs: seq<string>)
    requires forall i :: 0 <= i < |fs| ==> Plain(fs[i])
    ensures QuoteAll(EscapeAll(fs)) == fs
  {
    forall i | 0 <= i < |fs| ensures QuoteAll(EscapeAll(fs))[i] == fs[i] {
      PlainField(fs[i]);
    }
  }

  /** A text without double quotes, commas or line feeds is written as it is. */
  lemma PlainField(f: string)
    requires Plain(f)
    ensures Quote(Escape(f)) == f
  {
    EscapeNoQuote(f);
  }

  /**
   * The export of a non-empty list whose rows all have a timestamp
   * succeeds, and reading the file back yields the header and then, for
   * each row in order, its time, type, category, amount and note exactly
   * (notes with quotes, commas or line feeds included).
   */
  lemma ExportRoundTrip(rows: seq<Tx>, iso: int -> string)
    requires rows != []
    requires forall i :: 0 <= i < |rows| ==> Exportable(rows[i], iso)
    ensures Export(rows, iso).Ok?
    ensures ParseDocument(Export(rows, iso).csv) == [HeaderFields] + Records(rows, iso)
  {
    ExportIsRendered(rows, iso);
    RecordsReadBack(rows, iso);
  }

  /** The header and the rows' records, rendered, read back as themselves. */
  lemma RecordsReadBack(rows: seq<Tx>, iso: int -> string)
    ensures ParseDocument(Join(Render([HeaderFields] + Records(rows, iso)), '\n')) == [HeaderFields] + Records(rows, iso)
  {
    var recs := [HeaderFields] + Records(rows, iso);
    forall i | 0 <= i < |recs| ensures |recs[i]| >= 2 {
      if i > 0 {
        assert recs[i] == Records(rows, iso)[i - 1];
      }
    }
    DocumentRoundTrip(recs);
  }

  /** A successful export is the rendering of the header and the rows' records. */
  lemma ExportIsRendered(rows: seq<Tx>, iso: int -> string)
    requires rows != []
    requires forall i :: 0 <= i < |rows| ==> Exportable(rows[i], iso)
    ensures Export(rows, iso) == Ok(Join(Render([HeaderFields] + Records(rows, iso)), '\n'))
  {
    assert !exists i :: 0 <= i < |rows| && rows[i].timestamp.None? by {
      forall i | 0 <= i < |rows| ensures rows[i].timestamp.Some? {
        assert Exportable(rows[i], iso);
      }
    }
    var recs := [HeaderFields] + Records(rows, iso);
    assert Render(recs) == [Join(HeaderFields, ',')] + Lines(rows, iso) by {
      HeaderIsRendered();
      LinesAreRendered(rows, iso);
      assert recs[1..] == Records(rows, iso);
    }
  }

  /**
   * A `null` timestamp is the epoch for `new Date`, so rows whose
   * timestamps are all `null` (`Some(0)`) still export, each line starting
   * with the epoch's ISO text.
   */
  lemma NullTimestampsExport(rows: seq<Tx>, iso: int -> string)
    requires rows != []
    requires forall i :: 0 <= i < |rows| ==> rows[i].timestamp == Some(0)
    ensures Export(rows, iso).Ok?
    ensures forall i :: 0 <= i < |rows| ==> Record(rows[i], iso)[0] == iso(0)
  {
    assert !exists i :: 0 <= i < |rows| && rows[i].timestamp.None? by {
      forall i | 0 <= i < |rows| ensures rows[i].timestamp.Some? {
        assert rows[i].timestamp == Some(0);
      }
    }
  }

  /** The corrected export fails on exactly the same lists, with the same error. */
  lemma ExportEscapedErrors(rows: seq<Tx>, iso: int -> string)
    ensures ExportEscaped(rows, iso).Err? <==> Export(rows, iso).Err?
    ensures Export(rows, iso).Err? ==> ExportEscaped(rows, iso) == Export(rows, iso)
  {
  }

  // ----- A double quote outside the note -----

  /** Inside a quoted field, text without double quotes runs to the end. */
  lemma {:induction false} QuotedToEnd(x: string)
    requires '"' !in x
    ensures ParseQuoted(x) == (x, "")
    decreases |x|
  {
    if x != "" {
      QuotedToEnd(x[1..]);
      assert [x[0]] + x[1..] == x;
    }
  }

  /** Text that needs neither escaping nor quoting. */
  predicate Plain(x: string) {
    '"' !in x && ',' !in x && '\n' !in x
  }

  /**
   * As written, a category `"` is quoted without being doubled, and the
   * quoted field swallows the amount and the note: the line reads back
   * with three fields instead of five.
   */
  lemma QuoteInCategoryBreaksLine(r: Tx, t: string)
    requires r.category == "\""
    requires Plain(t) && Plain(r.kind) && Plain(r.amount) && Plain(r.note)
    ensures ParseRecord(Line(r, t)) == ([t, r.kind, "\"," + r.amount + "," + r.note], "")
    ensures |ParseRecord(Line(r, t)).0| == 3 < |RowFields(r, t)|
  {
    var third := "\"\"\"" + ("," + (r.amount + ("," + r.note)));
    var second := r.kind + ("," + third);
    BrokenRowText(r, t);
    PlainFieldFirst(t, "," + second);
    ParseRecordCons(Line(r, t), t, second);
    PlainFieldFirst(r.kind, "," + third);
    ParseRecordCons(second, r.kind, third);
    QuotedRunsOn(r.amount + ("," + r.note));
    var f3 := "\"," + r.amount + "," + r.note;
    assert "\"," + (r.amount + ("," + r.note)) == f3;
    ParseRecordLast(third, f3, "");
    assert ParseRecord(second) == ([r.kind] + [f3], "");
    assert [t] + ([r.kind] + [f3]) == [t, r.kind, f3];
  }

  /** The line written for such a row. */
  lemma BrokenRowText(r: Tx, t: string)
    requires r.category == "\""
    requires Plain(t) && Plain(r.kind) && Plain(r.amount) && Plain(r.note)
    ensures Line(r, t) == t + ("," + (r.kind + ("," + ("\"\"\"" + ("," + (r.amount + ("," + r.note)))))))
  {
    EscapeNoQuote(r.note);
    var enc := QuoteAll(RowFields(r, t));
    assert NeedsQuotes(r.category) by {
      assert r.category[0] == '"';
    }
    assert enc[0] == t && enc[1] == r.kind && enc[3] == r.amount && enc[4] == r.note;
    assert enc[2] == "\"" + "\"" + "\"" == "\"\"\"";
    var third := "\"\"\"" + ("," + (r.amount + ("," + r.note)));
    var second := r.kind + ("," + third);
    LineOfBrokenRow(enc, third, second);
  }

  /** A plain field followed by a comma reads as itself. */
  lemma PlainFieldFirst(x: string, rest: string)
    requires Plain(x) && rest != "" && rest[0] == ','
    ensures ParseField(x + rest) == (x, rest)
  {
    BareRoundTrip(x, rest);
    assert (x + rest)[0] == if x == "" then rest[0] else x[0];
  }

  lemma LineOfBrokenRow(enc: seq<string>, third: string, second: string)
    requires |enc| == 5 && enc[2] == "\"\"\""
    requires third == enc[2] + ("," + (enc[3] + ("," + enc[4])))
    requires second == enc[1] + ("," + third)
    ensures Join(enc, ',') == enc[0] + ("," + second)
  {
    JoinCons(enc, ',', "");
    JoinCons(enc[1..], ',', "");
    JoinCons(enc[2..], ',', "");
    JoinCons(enc[3..], ',', "");
  }

  /** A lone `"` opening a quoted field reads as an escaped quote, and the field then runs on. */
  lemma QuotedRunsOn(x: string)
    requires '"' !in x
    ensures ParseField("\"\"\"" + ("," + x)) == ("\"," + x, "")
  {
    var s := "\"\"\"" + ("," + x);
    var inner := s[1..];
    assert s[0] == '"';
    assert inner == "\"\"" + ("," + x);
    assert |inner| > 1 && inner[0] == '"' && inner[1] == '"';
    assert inner[2..] == "," + x;
    QuotedToEnd("," + x);
    assert ParseQuoted(inner) == ("\"" + ("," + x), "");
    assert "\"" + ("," + x) == "\"," + x;
  }

  /** Escaping every field makes the export read back exactly, whatever the fields hold. */
  lemma ExportEscapedRoundTrip(rows: seq<Tx>, iso: int -> string)
    requires rows != []
    requires forall i :: 0 <= i < |rows| ==> rows[i].timestamp.Some?
    ensures ExportEscaped(rows, iso).Ok?
    ensures ParseDocument(ExportEscaped(rows, iso).csv) == [HeaderFields] + Records(rows, iso)
  {
    ExportEscapedIsRendered(rows, iso);
    RecordsReadBack(rows, iso);
  }

  lemma ExportEscapedIsRendered(rows: seq<Tx>, iso: int -> string)
    requires rows != []
    requires forall i :: 0 <= i < |rows| ==> rows[i].timestamp.Some?
    ensures ExportEscaped(rows, iso) == Ok(Join(Render([HeaderFields] + Records(rows, iso)), '\n'))
  {
    var recs := [HeaderFields] + Records(rows, iso);
    assert Render(recs) == [Join(HeaderFields, ',')] + Render(Records(rows, iso)) by {
      HeaderIsRendered();
      assert recs[1..] == Records(rows, iso);
    }
  }
}

=== FILE: guidelines.dfy ===
/**
 * The budget bar of the guidelines panel (`barRow` in app.extra.js): the
 * percentage of a category's limit already spent, clamped at 100, and the
 * warning colour chosen from it. Amounts are exact reals; JavaScript's
 * `Math.round` is written out.
 */
module Guidelines {

  /** `Math.round`: the nearest integer, a half rounding up (towards +infinity). */
  function Round(x: real): (n: int)
    ensures n as real - 0.5 <= x < n as real + 0.5
  {
    (x + 0.5).Floor
  }

  function Min(a: int, b: int): int {
    if a <= b then a else b
  }

  /** `limit > 0 ? Math.min(100, Math.round((used / limit) * 100)) : 0`. */
  function Percent(used: real, limit: real): (pct: int)
    ensures limit <= 0.0 ==> pct == 0
    ensures pct <= 100
  {
    if limit > 0.0 then Min(100, Round(Ratio(used, limit))) else 0
  }

  /** `(used / limit) * 100` for a positive limit. */
  function Ratio(used: real, limit: real): real
    requires limit > 0.0
  {
    used / limit * 100.0
  }

  /**
   * With a positive limit: no spending shows no less than 0%, spending
   * the whole limit shows 100%, and below the clamp the percentage is the
   * exact ratio rounded to the nearest integer.
   */
  lemma PercentBounds(used: real, limit: real)
    requires limit > 0.0
    ensures used >= 0.0 ==> Percent(used, limit) >= 0
    ensures used >= limit ==> Percent(used, limit) == 100
    ensures Percent(used, limit) < 100 ==>
              Percent(used, limit) as real - 0.5 <= Ratio(used, limit) < Percent(used, limit) as real + 0.5
  {
    var x := Ratio(used, limit);
    if used >= 0.0 {
      assert used / limit >= 0.0;
      assert x >= 0.0;
    }
    if used >= limit {
      var q := used / limit;
      assert q * limit == used;
      if q < 1.0 {
        // then q * limit < limit <= used
        assert false;
      }
      assert x >= 100.0;
    }
  }

  /** Spending more never shows a smaller percentage. */
  lemma PercentMonotone(used: real, more: real, limit: real)
    requires used <= more
    ensures Percent(used, limit) <= Percent(more, limit)
  {
    if limit > 0.0 {
      var a, b := Ratio(used, limit), Ratio(more, limit);
      assert a <= b by {
        assert more - used >= 0.0;
        assert b - a == (more - used) / limit * 100.0;
      }
      FloorMonotone(a + 0.5, b + 0.5);
    }
  }

  lemma FloorMonotone(x: real, y: real)
    requires x <= y
    ensures x.Floor <= y.Floor
  {
    assert x.Floor as real <= x;
    assert y < y.Floor as real + 1.0;
  }

  /** The warning classes `text-bad`, `text-muted` and `text-ok`. */
  datatype Warn = TextBad | TextMuted | TextOk

  function ClassName(w: Warn): string {
    match w
    case TextBad => "text-bad"
    case TextMuted => "text-muted"
    case TextOk => "text-ok"
  }

  /** The class written into the bar's markup for a percentage: the three thresholds of `barRow`. */
  lemma WarnClassName(pct: int)
    ensures ClassName(WarnClass(pct)) == "text-bad" <==> 90 <= pct
    ensures ClassName(WarnClass(pct)) == "text-muted" <==> 70 <= pct < 90
    ensures ClassName(WarnClass(pct)) == "text-ok" <==> pct < 70
  {
  }

  /** `pct >= 90 ? 'text-bad' : (pct >= 70 ? 'text-muted' : 'text-ok')`. */
  function WarnClass(pct: int): (w: Warn)
    ensures w == TextBad <==> 90 <= pct
    ensures w == TextMuted <==> 70 <= pct < 90
    ensures w == TextOk <==> pct < 70
  {
    if pct >= 90 then TextBad else if pct >= 70 then TextMuted else TextOk
  }

  /** The two values `barRow` renders: the percentage and its warning class. */
  datatype BarView = BarView(pct: int, warn: Warn)

  function Bar(used: real, limit: real): BarView {
    var pct := Percent(used, limit);
    BarView(pct, WarnClass(pct))
  }

  /**
   * A bar with no limit shows 0% in the calm colour; a bar at or over its
   * limit shows 100% in the alarm colour; the colour never calms down as
   * spending grows.
   */
  lemma BarFacts(used: real, more: real, limit: real)
    requires used <= more
    ensures limit <= 0.0 ==> Bar(used, limit) == BarView(0, TextOk)
    ensures limit > 0.0 && used >= limit ==> Bar(used, limit) == BarView(100, TextBad)
    ensures Severity(Bar(used, limit).warn) <= Severity(Bar(more, limit).warn)
  {
    PercentMonotone(used, more, limit);
    if limit > 0.0 {
      PercentBounds(used, limit);
    }
  }

  /** The warning classes in increasing order of alarm. */
  function Severity(w: Warn): nat {
    match w
    case TextOk => 0
    case TextMuted => 1
    case TextBad => 2
  }
}

=== FILE: offline_queue.dfy ===
/**
 * The offline command queue as a specification on values.
 *
 * Two scripts each replace the page's `apiPost` by a wrapper around
 * whatever `apiPost` existed when they loaded: the generic wrapper of
 * app.features.js (`Features`, slot `mx_queue_v2`, intercepts every
 * request) and the `addTransaction` wrapper of app.extra.js (`Extra`, slot
 * `mx_offline_queue_v1`). A stack lists the installed wrappers innermost
 * first; the empty stack is the page's own transport. `Dispatch` is what
 * calling the outermost `apiPost` of a stack does to the world.
 */
module OfflineQueue {
  import opened Common
  import opened Transport
  import opened Storage

  datatype Layer = Features | Extra

  /** Everything the queue layer reads or writes. */
  datatype World = World(wire: Wire, features: QueueState, extra: QueueState, summary: CacheState)

  /** Whether a wrapper catches the failure of `body` (app.extra.js:234 for `Extra`). */
  predicate Intercepts(l: Layer, body: Body) {
    l == Features || IsAddTransaction(body)
  }

  /** The slot a wrapper queues into. */
  function QueueOf(w: World, l: Layer): QueueState {
    if l == Features then w.features else w.extra
  }

  function WithQueue(w: World, l: Layer, s: QueueState): World {
    if l == Features then w.(features := s) else w.(extra := s)
  }

  /** The request that `fetchAndCacheSummary` sends. */
  const SummaryRequest := Body("summary", [])

  /**
   * Calling the outermost `apiPost` of `stack` with `body` at time `now`.
   * An intercepting wrapper returns its inner result when that resolves;
   * when it rejects, it queues `{when: now, body}` (swallowing storage
   * errors) and resolves with the synthetic offline acknowledgement. Any
   * other request goes straight to the inner `apiPost`.
   */
  function Dispatch(stack: seq<Layer>, body: Body, now: int, w: World): (p: (Response, World))
    ensures p.1.wire == Consume(w.wire, body)
    ensures p.1.summary == w.summary
    ensures p.0.Failed? <==> NextFails(w.wire) && Catcher(stack, body).None?
    decreases |stack|
  {
    if stack == [] then
      var (r, wire) := Call(w.wire, body);
      (r, w.(wire := wire))
    else
      var top := stack[|stack| - 1];
      var (r, w1) := Dispatch(stack[..|stack| - 1], body, now, w);
      if !Intercepts(top, body) || r.Delivered? then (r, w1)
      else (Delivered(OfflineAck), WithQueue(w1, top, Enqueue(QueueOf(w1, top), Entry(now, body))))
  }

  /**
   * Replaying the loaded entries `q` one by one, in order, through the
   * wrapper's captured inner `apiPost` (`inner`): the entries whose replay
   * rejected, in their original order, and the world afterwards.
   */
  function Replay(inner: seq<Layer>, q: seq<Entry>, now: int, w: World): (p: (seq<Entry>, World))
    ensures IsSubsequence(p.0, q)
    ensures p.1.wire.sent == w.wire.sent + Bodies(q)
    ensures p.1.summary == w.summary
    decreases |q|
  {
    if q == [] then
      assert w.wire.sent + Bodies(q) == w.wire.sent;
      ([], w)
    else
      var init, last := q[..|q| - 1], q[|q| - 1];
      var (rest, w1) := Replay(inner, init, now, w);
      var (r, w2) := Dispatch(inner, last.body, now, w1);
      SubsequenceExtend(rest, init, last, r.Failed?);
      assert init + [last] == q;
      assert Bodies(q) == Bodies(init) + [last.body];
      (if r.Failed? then rest + [last] else rest, w2)
  }

  /** What `flushQueue` loads: the slot's entries, or none when the read throws. */
  function Loaded(s: QueueState): seq<Entry> {
    match LoadQueue(s)
    case None => []
    case Some(q) => q
  }

  /**
   * The part of `flushQueue` shared by both scripts: load the slot of
   * layer `l` (corrupt reads as empty), return at once when it is empty,
   * replay every entry through `inner`, write back the entries that failed
   * again. The flag says whether the write succeeded and the queue got
   * shorter; a failed write throws out of `flushQueue`.
   */
  function Drain(inner: seq<Layer>, l: Layer, now: int, w: World): (p: (bool, World))
    ensures p.1.wire.sent == w.wire.sent + Bodies(Loaded(QueueOf(w, l)))
    ensures p.1.summary == w.summary
    ensures p.0 ==> |QueueOf(p.1, l).entries| < |QueueOf(w, l).entries|
  {
    var q := Loaded(QueueOf(w, l));
    if q == [] then
      assert w.wire.sent + Bodies(q) == w.wire.sent;
      (false, w)
    else
      var (rest, w1) := Replay(inner, q, now, w);
      SubsequenceLength(rest, q);
      if QueueOf(w1, l).full then (false, w1)
      else (|q| != |rest|, WithQueue(w1, l, StoreQueue(QueueOf(w1, l), rest)))
  }

  /** `flushQueue` of app.features.js; the flag says whether `refresh` is called. */
  function FlushFeatures(inner: seq<Layer>, now: int, w: World): (bool, World)
  {
    Drain(inner, Features, now, w)
  }

  /**
   * `fetchAndCacheSummary`: the summary request goes through the page's
   * current `apiPost` (the whole stack); when it resolves, its reply is
   * written to the cache slot, a failed write being swallowed.
   */
  function FetchSummary(stack: seq<Layer>, now: int, w: World): (p: (Response, World))
    ensures p.1.wire == Consume(w.wire, SummaryRequest)
    ensures p.0.Delivered? && !w.summary.full ==> LoadCache(p.1.summary) == Some(p.0.reply)
    ensures p.0.Failed? ==> p.1.summary == w.summary
  {
    var (r, w1) := Dispatch(stack, SummaryRequest, now, w);
    if r.Delivered? then (r, w1.(summary := StoreCache(w1.summary, r.reply))) else (r, w1)
  }

  /**
   * `flushQueue` of app.extra.js: after a drain that delivered something it
   * fetches and caches the summary, then repaints and calls `refresh`; a
   * failed fetch skips both. The flag says whether `refresh` is called.
   */
  function FlushExtra(inner: seq<Layer>, stack: seq<Layer>, now: int, w: World): (p: (bool, World))
    ensures p.0 ==> Drain(inner, Extra, now, w).0
    ensures p.1.wire.sent == w.wire.sent + Bodies(Loaded(w.extra))
              + (if Drain(inner, Extra, now, w).0 then [SummaryRequest] else [])
    ensures p.0 && !w.summary.full ==> LoadCache(p.1.summary).Some?
  {
    var (delivered, w1) := Drain(inner, Extra, now, w);
    if !delivered then (false, w1)
    else
      var (r, w2) := FetchSummary(stack, now, w1);
      (r.Delivered?, w2)
  }

  // ----- Properties of the wrapper stack -----

  /** The innermost wrapper of `stack` that intercepts `body`, if any. */
  function Catcher(stack: seq<Layer>, body: Body): (k: Option<nat>)
    ensures k.Some? ==> k.value < |stack| && Intercepts(stack[k.value], body)
    ensures k.Some? ==> forall i :: 0 <= i < k.value ==> !Intercepts(stack[i], body)
    ensures k.None? ==> forall i :: 0 <= i < |stack| ==> !Intercepts(stack[i], body)
    decreases |stack|
  {
    if stack == [] then None
    else
      match Catcher(stack[..|stack| - 1], body)
      case Some(k) => Some(k)
      case None => if Intercepts(stack[|stack| - 1], body) then Some(|stack| - 1) else None
  }

  /**
   * When the transport answers, every wrapper passes the answer through
   * unchanged: the result is the server's payload, the request was sent
   * once, and no slot changes.
   */
  lemma {:induction false} DispatchAnswered(stack: seq<Layer>, body: Body, now: int, w: World)
    requires !NextFails(w.wire)
    ensures Dispatch(stack, body, now, w)
         == (Delivered(Server(w.wire.outcomes[0].payload)), w.(wire := Consume(w.wire, body)))
    decreases |stack|
  {
    if stack != [] {
      DispatchAnswered(stack[..|stack| - 1], body, now, w);
    }
  }

  /** The world after a rejected call, as the wrappers leave it. */
  function AfterRejection(stack: seq<Layer>, body: Body, now: int, w: World): (Response, World)
  {
    var w' := w.(wire := Consume(w.wire, body));
    match Catcher(stack, body)
    case None => (Failed, w')
    case Some(k) =>
      (Delivered(OfflineAck), WithQueue(w', stack[k], Enqueue(QueueOf(w', stack[k]), Entry(now, body))))
  }

  /**
   * When the transport rejects, the request is queued exactly once, by the
   * innermost wrapper that intercepts it, and every wrapper above sees the
   * offline acknowledgement as a success. With no intercepting wrapper the
   * rejection reaches the caller and no slot changes.
   */
  lemma {:induction false} DispatchRejected(stack: seq<Layer>, body: Body, now: int, w: World)
    requires NextFails(w.wire)
    ensures Dispatch(stack, body, now, w) == AfterRejection(stack, body, now, w)
    decreases |stack|
  {
    if stack != [] {
      var inner := stack[..|stack| - 1];
      DispatchRejected(inner, body, now, w);
      match Catcher(inner, body)
      case Some(k) =>
        assert inner[k] == stack[k];
      case None =>
    }
  }

  /** The wrapper of app.features.js on top of any inner `apiPost` (app.features.js:38-50). */
  lemma FeaturesWrapper(inner: seq<Layer>, body: Body, now: int, w: World)
    ensures var (r0, w0) := Dispatch(inner, body, now, w);
            var (r, w') := Dispatch(inner + [Features], body, now, w);
            && (r0.Delivered? ==> r == r0 && w' == w0)
            && (r0.Failed? ==> r == Delivered(OfflineAck) && w' == w0.(features := Enqueue(w0.features, Entry(now, body))))
  {
    assert (inner + [Features])[..|inner|] == inner;
  }

  /**
   * The wrapper of app.extra.js (app.extra.js:232-252): an `addTransaction`
   * behaves as in the generic wrapper but queues into its own slot; any
   * other request is forwarded and its rejection propagates.
   */
  lemma ExtraWrapper(inner: seq<Layer>, body: Body, now: int, w: World)
    ensures var (r0, w0) := Dispatch(inner, body, now, w);
            var (r, w') := Dispatch(inner + [Extra], body, now, w);
            && (!IsAddTransaction(body) ==> r == r0 && w' == w0)
            && (IsAddTransaction(body) && r0.Delivered? ==> r == r0 && w' == w0)
            && (IsAddTransaction(body) && r0.Failed? ==>
                  r == Delivered(OfflineAck) && w' == w0.(extra := Enqueue(w0.extra, Entry(now, body))))
  {
    assert (inner + [Extra])[..|inner|] == inner;
  }

  /**
   * A wrapper that is not in `stack` never has its slot touched, no slot's
   * write flag changes, and the summary cache is left alone.
   */
  lemma {:induction false} DispatchLeavesOthers(stack: seq<Layer>, l: Layer, body: Body, now: int, w: World)
    ensures l !in stack ==> QueueOf(Dispatch(stack, body, now, w).1, l) == QueueOf(w, l)
    ensures QueueOf(Dispatch(stack, body, now, w).1, l).full == QueueOf(w, l).full
    ensures Dispatch(stack, body, now, w).1.summary == w.summary
    decreases |stack|
  {
    if stack != [] {
      var inner := stack[..|stack| - 1];
      assert l !in stack ==> l !in inner by {
        forall x | x in inner ensures x in stack { assert inner[..] == stack[..|stack| - 1]; }
      }
      DispatchLeavesOthers(inner, l, body, now, w);
    }
  }

  /**
   * Replay goes through the captured inner `apiPost`, so a wrapper's own
   * slot is never re-enqueued into while it replays (as long as the same
   * script was not loaded twice below it).
   */
  lemma {:induction false} ReplayLeavesOthers(inner: seq<Layer>, l: Layer, q: seq<Entry>, now: int, w: World)
    ensures l !in inner ==> QueueOf(Replay(inner, q, now, w).1, l) == QueueOf(w, l)
    ensures QueueOf(Replay(inner, q, now, w).1, l).full == QueueOf(w, l).full
    decreases |q|
  {
    if q != [] {
      ReplayLeavesOthers(inner, l, q[..|q| - 1], now, w);
      var w1 := Replay(inner, q[..|q| - 1], now, w).1;
      DispatchLeavesOthers(inner, l, q[|q| - 1].body, now, w1);
    }
  }

  // ----- Replay directly over the transport -----

  /** Whether the oracle rejects the `i`-th call from now. */
  predicate FailsAt(outs: seq<Outcome>, i: nat) {
    i >= |outs| || outs[i].Unreachable?
  }

  /** The entries of `q` whose replay the oracle rejects, in order. */
  function Kept(q: seq<Entry>, outs: seq<Outcome>): seq<Entry>
    decreases |q|
  {
    if q == [] then []
    else Kept(q[..|q| - 1], outs) + (if FailsAt(outs, |q| - 1) then [q[|q| - 1]] else [])
  }

  /** The oracle after `n` calls. */
  function Skip(outs: seq<Outcome>, n: nat): seq<Outcome> {
    if n >= |outs| then [] else outs[n..]
  }

  /** The requests of `q`, in order. */
  function Bodies(q: seq<Entry>): (bs: seq<Body>)
    ensures |bs| == |q| && forall i :: 0 <= i < |q| ==> bs[i] == q[i].body
  {
    seq(|q|, i requires 0 <= i < |q| => q[i].body)
  }

  /**
   * Replaying straight over the transport sends every entry exactly once,
   * in FIFO order, consumes one outcome per entry, keeps exactly the
   * entries whose outcome was a rejection and touches no slot.
   */
  lemma {:induction false} ReplayOverNetwork(q: seq<Entry>, now: int, w: World)
    ensures Replay([], q, now, w)
         == (Kept(q, w.wire.outcomes),
             w.(wire := Wire(Skip(w.wire.outcomes, |q|), w.wire.sent + Bodies(q))))
    decreases |q|
  {
    if q != [] {
      var p, e, outs := q[..|q| - 1], q[|q| - 1], w.wire.outcomes;
      ReplayOverNetwork(p, now, w);
      var w1 := w.(wire := Wire(Skip(outs, |p|), w.wire.sent + Bodies(p)));
      assert NextFails(w1.wire) <==> FailsAt(outs, |p|);
      assert Consume(w1.wire, e.body).outcomes == Skip(outs, |q|);
      assert w.wire.sent + Bodies(p) + [e.body] == w.wire.sent + Bodies(q);
      var (r, w2) := Dispatch([], e.body, now, w1);
      assert (r, w2) == (Call(w1.wire, e.body).0, w1.(wire := Consume(w1.wire, e.body)));
      assert r.Failed? <==> FailsAt(outs, |p|);
      assert Replay([], q, now, w) == (if r.Failed? then Kept(p, outs) + [e] else Kept(p, outs), w2);
      assert Kept(q, outs) == if r.Failed? then Kept(p, outs) + [e] else Kept(p, outs);
      assert w2 == w.(wire := Wire(Skip(outs, |q|), w.wire.sent + Bodies(q)));
    } else {
      assert w.wire.sent + Bodies(q) == w.wire.sent;
    }
  }

  /** The kept entries are an order-preserving subsequence of the queue. */
  lemma {:induction false} KeptIsSubsequence(q: seq<Entry>, outs: seq<Outcome>)
    ensures IsSubsequence(Kept(q, outs), q)
    ensures |Kept(q, outs)| <= |q|
    decreases |q|
  {
    if q != [] {
      var p := q[..|q| - 1];
      KeptIsSubsequence(p, outs);
      SubsequenceExtend(Kept(p, outs), p, q[|q| - 1], FailsAt(outs, |q| - 1));
      assert p + [q[|q| - 1]] == q;
      assert Kept(q, outs) == if FailsAt(outs, |q| - 1) then Kept(p, outs) + [q[|q| - 1]] else Kept(p, outs);
    }
    SubsequenceLength(Kept(q, outs), q);
  }

  /** Nothing is dropped exactly when every replay is rejected. */
  lemma {:induction false} KeptAllIffNoneDelivered(q: seq<Entry>, outs: seq<Outcome>)
    ensures |Kept(q, outs)| == |q| <==> forall i :: 0 <= i < |q| ==> FailsAt(outs, i)
    decreases |q|
  {
    if q != [] {
      var p := q[..|q| - 1];
      KeptAllIffNoneDelivered(p, outs);
      KeptIsSubsequence(p, outs);
    }
  }

  /**
   * A flush of either script straight over the transport, on a healthy
   * non-empty slot: the slot ends up holding exactly the entries whose
   * replay failed, in their original order; each entry was sent once, in
   * FIFO order; refresh happens iff some replay succeeded; the other slots
   * are untouched.
   */
  lemma DrainOverNetwork(l: Layer, now: int, w: World)
    requires !QueueOf(w, l).corrupt && !QueueOf(w, l).full && QueueOf(w, l).entries != []
    ensures var q, outs := QueueOf(w, l).entries, w.wire.outcomes;
            var (refreshed, w') := Drain([], l, now, w);
            && QueueOf(w', l).entries == Kept(q, outs)
            && IsSubsequence(QueueOf(w', l).entries, q)
            && w'.wire.sent == w.wire.sent + Bodies(q)
            && w'.wire.outcomes == Skip(outs, |q|)
            && (refreshed <==> exists i :: 0 <= i < |q| && !FailsAt(outs, i))
            && w'.summary == w.summary
            && (l == Features ==> w'.extra == w.extra)
            && (l == Extra ==> w'.features == w.features)
  {
    var q, outs := QueueOf(w, l).entries, w.wire.outcomes;
    ReplayOverNetwork(q, now, w);
    KeptIsSubsequence(q, outs);
    KeptAllIffNoneDelivered(q, outs);
  }

  /** An empty, absent or corrupt slot makes a flush a no-op: no write, no replay, no refresh. */
  lemma DrainEmptyIsNoop(inner: seq<Layer>, stack: seq<Layer>, l: Layer, now: int, w: World)
    requires QueueOf(w, l).corrupt || QueueOf(w, l).entries == []
    ensures Drain(inner, l, now, w) == (false, w)
    ensures l == Extra ==> FlushExtra(inner, stack, now, w) == (false, w)
  {
  }

  /**
   * Whatever the inner `apiPost`, a flush whose write succeeds stores an
   * order-preserving subsequence of the loaded entries (those whose replay
   * rejected), and reports a refresh iff that is shorter than what was loaded.
   */
  lemma DrainStoresFailures(inner: seq<Layer>, l: Layer, now: int, w: World)
    requires !QueueOf(w, l).corrupt && !QueueOf(w, l).full && QueueOf(w, l).entries != []
    ensures var q := QueueOf(w, l).entries;
            var (refreshed, w') := Drain(inner, l, now, w);
            && QueueOf(w', l).entries == Replay(inner, q, now, w).0
            && IsSubsequence(QueueOf(w', l).entries, q)
            && |QueueOf(w', l).entries| <= |q|
            && (refreshed <==> |QueueOf(w', l).entries| < |q|)
  {
    var q := QueueOf(w, l).entries;
    ReplayLeavesOthers(inner, l, q, now, w);
    SubsequenceLength(Replay(inner, q, now, w).0, q);
  }

  /**
   * When the write-back throws (full storage) the flush reports no refresh
   * and the slot keeps every loaded entry, including those already
   * delivered: they will be replayed again by the next flush.
   */
  lemma DrainWriteFailure(inner: seq<Layer>, l: Layer, now: int, w: World)
    requires QueueOf(w, l).full && l !in inner
    ensures Drain(inner, l, now, w).0 == false
    ensures QueueOf(Drain(inner, l, now, w).1, l) == QueueOf(w, l)
  {
    ReplayLeavesOthers(inner, l, Loaded(QueueOf(w, l)), now, w);
  }

  /**
   * app.extra.js's flush when its wrapper sits directly on the transport:
   * the slot keeps exactly the rejected entries; refresh happens iff some
   * replay succeeded AND the following summary fetch was answered, in
   * which case the cache holds that answer.
   */
  lemma FlushExtraOverNetwork(now: int, w: World)
    requires !w.extra.corrupt && !w.extra.full && w.extra.entries != []
    ensures var q, outs := w.extra.entries, w.wire.outcomes;
            var (refreshed, w') := FlushExtra([], [Extra], now, w);
            && w'.extra.entries == Kept(q, outs)
            && w'.features == w.features
            && (refreshed <==> (exists i :: 0 <= i < |q| && !FailsAt(outs, i)) && !FailsAt(outs, |q|))
            && (refreshed ==> w'.summary == StoreCache(w.summary, Server(outs[|q|].payload)))
            && (!refreshed ==> w'.summary == w.summary)
            && w'.wire.sent == w.wire.sent + Bodies(q)
                 + (if exists i :: 0 <= i < |q| && !FailsAt(outs, i) then [SummaryRequest] else [])
  {
    var q, outs := w.extra.entries, w.wire.outcomes;
    DrainOverNetwork(Extra, now, w);
    var (delivered, w1) := Drain([], Extra, now, w);
    if delivered {
      assert !IsAddTransaction(SummaryRequest);
      assert [Extra][..0] == [];
      var skipped := Skip(outs, |q|);
      assert NextFails(w1.wire) <==> FailsAt(outs, |q|);
      if !FailsAt(outs, |q|) {
        DispatchAnswered([Extra], SummaryRequest, now, w1);
      } else {
        DispatchRejected([Extra], SummaryRequest, now, w1);
      }
    }
  }

  // ----- Several calls in a row -----

  /**
   * Issuing the requests of `calls` one after another through the outermost
   * `apiPost`, each at its own time: the responses in order and the world
   * afterwards.
   */
  function IssueAll(stack: seq<Layer>, calls: seq<Entry>, w: World): (seq<Response>, World)
    decreases |calls|
  {
    if calls == [] then ([], w)
    else
      var c := calls[|calls| - 1];
      var (rs, w1) := IssueAll(stack, calls[..|calls| - 1], w);
      var (r, w2) := Dispatch(stack, c.body, c.when, w1);
      (rs + [r], w2)
  }

  /** The innermost wrapper of `stack` that intercepts `body` is a wrapper of kind `l`. */
  predicate CaughtBy(stack: seq<Layer>, body: Body, l: Layer) {
    var k := Catcher(stack, body);
    k.Some? && stack[k.value] == l
  }

  /** Every remaining call on the transport rejects. */
  predicate Offline(wire: Wire) {
    forall i :: 0 <= i < |wire.outcomes| ==> wire.outcomes[i].Unreachable?
  }

  /**
   * N intercepted requests issued while the transport keeps failing: each
   * caller sees the offline acknowledgement, and the catching wrapper's slot
   * gains exactly the N entries, in the order they were issued, after what
   * it already held.
   */
  lemma {:induction false} BurstWhileOffline(stack: seq<Layer>, l: Layer, calls: seq<Entry>, w: World)
    requires Offline(w.wire)
    requires !QueueOf(w, l).corrupt && !QueueOf(w, l).full
    requires forall i :: 0 <= i < |calls| ==> CaughtBy(stack, calls[i].body, l)
    ensures var (rs, w') := IssueAll(stack, calls, w);
            && |rs| == |calls|
            && (forall i :: 0 <= i < |rs| ==> rs[i] == Delivered(OfflineAck))
            && QueueOf(w', l) == QueueOf(w, l).(entries := QueueOf(w, l).entries + calls)
            && Offline(w'.wire)
    decreases |calls|
  {
    if calls == [] {
      assert QueueOf(w, l).entries + calls == QueueOf(w, l).entries;
    } else {
      var init, c := calls[..|calls| - 1], calls[|calls| - 1];
      BurstWhileOffline(stack, l, init, w);
      var (rs, w1) := IssueAll(stack, init, w);
      DispatchRejected(stack, c.body, c.when, w1);
      var w2 := Dispatch(stack, c.body, c.when, w1).1;
      assert QueueOf(w2, l).entries == QueueOf(w1, l).entries + [c];
      assert QueueOf(w, l).entries + init + [c] == QueueOf(w, l).entries + calls;
    }
  }

  /**
   * Partial failure: of the queued [a, b, c], only b's replay is rejected,
   * so after a flush straight over the transport the slot holds [b] and a
   * refresh is due.
   */
  lemma PartialFailure(l: Layer, a: Entry, b: Entry, c: Entry, pa: string, pc: string, now: int, w: World)
    requires QueueOf(w, l) == QueueState([a, b, c], false, false)
    requires w.wire.outcomes == [Answered(pa), Unreachable, Answered(pc)]
    ensures var (refreshed, w') := Drain([], l, now, w);
            refreshed && QueueOf(w', l).entries == [b] && w'.wire.sent == w.wire.sent + [a.body, b.body, c.body]
  {
    var q, outs := [a, b, c], w.wire.outcomes;
    DrainOverNetwork(l, now, w);
    assert !FailsAt(outs, 0);
    assert Kept(q, outs) == [b] by {
      assert [a][..0] == [] && [a, b][..1] == [a] && q[..2] == [a, b];
      assert Kept([a], outs) == [];
      assert Kept([a, b], outs) == [b];
    }
    assert Bodies(q) == [a.body, b.body, c.body];
  }

  /**
   * Offline add, then reconnect (app.extra.js wrapper alone on the
   * transport): the add is acknowledged as offline and queued once; the
   * next flush delivers it, empties the slot, fetches the summary exactly
   * once and caches it, and calls `refresh`.
   */
  lemma OfflineAddThenReconnect(add: Body, t0: int, t1: int, p: string, sum: string, w: World)
    requires IsAddTransaction(add)
    requires w.extra == QueueState([], false, false) && !w.summary.full
    requires w.wire.outcomes == [Unreachable, Answered(p), Answered(sum)]
    ensures var (r, w1) := Dispatch([Extra], add, t0, w);
            && r == Delivered(OfflineAck)
            && w1.extra.entries == [Entry(t0, add)]
            && var (refreshed, w2) := FlushExtra([], [Extra], t1, w1);
               && refreshed
               && w2.extra.entries == []
               && w2.wire.sent == w.wire.sent + [add, add, SummaryRequest]
               && LoadCache(w2.summary) == Some(Server(sum))
  {
    DispatchRejected([Extra], add, t0, w);
    var w1 := Dispatch([Extra], add, t0, w).1;
    assert w1.extra.entries == [Entry(t0, add)];
    var q, outs := w1.extra.entries, w1.wire.outcomes;
    assert outs == [Answered(p), Answered(sum)];
    assert !FailsAt(outs, 0) && !FailsAt(outs, 1);
    FlushExtraOverNetwork(t1, w1);
    assert Kept(q, outs) == [];
    assert Bodies(q) == [add];
  }

  /**
   * When app.features.js loads first, its wrapper sits inside the one of
   * app.extra.js and answers every rejection itself: every call resolves,
   * and the app.extra.js slot never changes, whatever the request.
   */
  lemma FeaturesFirstShieldsExtra(body: Body, now: int, w: World)
    ensures Dispatch([Features, Extra], body, now, w).0.Delivered?
    ensures Dispatch([Features, Extra], body, now, w).1.extra == w.extra
  {
    assert [Features, Extra][..1] == [Features];
    assert Catcher([Features], body) == Some(0);
    assert Dispatch([Features], body, now, w).0.Delivered?;
    DispatchLeavesOthers([Features], Extra, body, now, w);
  }

  /**
   * In that load order, an offline flush of app.extra.js moves its entry
   * into the app.features.js slot (the replay goes through the generic
   * wrapper, which queues it again), queues the summary request there too,
   * caches the offline acknowledgement as the summary, and still reports
   * a refresh.
   */
  lemma ExtraFlushRequeuesIntoFeatures(e: Entry, now: int, w: World)
    requires w.extra == QueueState([e], false, false)
    requires !w.features.corrupt && !w.features.full && !w.summary.full
    requires Offline(w.wire)
    ensures var (refreshed, w') := FlushExtra([Features], [Features, Extra], now, w);
            && refreshed
            && w'.extra.entries == []
            && w'.features.entries == w.features.entries + [Entry(now, e.body), Entry(now, SummaryRequest)]
            && LoadCache(w'.summary) == Some(OfflineAck)
  {
    assert NextFails(w.wire);
    DispatchRejected([Features], e.body, now, w);
    assert Catcher([Features], e.body) == Some(0);
    var w1 := Dispatch([Features], e.body, now, w).1;
    assert w1.features.entries == w.features.entries + [Entry(now, e.body)];
    assert w1.extra == w.extra;
    assert [e][..0] == [];
    assert Replay([Features], [], now, w) == ([], w);
    assert Replay([Features], [e], now, w) == ([], w1);
    assert Loaded(QueueOf(w, Extra)) == [e];
    var w2 := w1.(extra := StoreQueue(w1.extra, []));
    assert Drain([Features], Extra, now, w) == (true, w2);
    assert w2.wire.outcomes == if w.wire.outcomes == [] then [] else w.wire.outcomes[1..];
    assert Offline(w2.wire);
    DispatchRejected([Features, Extra], SummaryRequest, now, w2);
    assert Catcher([Features, Extra], SummaryRequest) == Some(0);
  }

  /**
   * With the generic wrapper installed, a summary fetch that fails offline
   * is queued as if it were a mutation, and the offline acknowledgement is
   * what gets written to the summary cache.
   */
  lemma OfflineSummaryIsCached(stack: seq<Layer>, now: int, w: World)
    requires Features in stack && NextFails(w.wire) && !w.summary.full
    ensures var (r, w') := FetchSummary(stack, now, w);
            r == Delivered(OfflineAck) && LoadCache(w'.summary) == Some(OfflineAck)
  {
    var i :| 0 <= i < |stack| && stack[i] == Features;
    assert Intercepts(stack[i], SummaryRequest);
    DispatchRejected(stack, SummaryRequest, now, w);
    var k := Catcher(stack, SummaryRequest);
    DispatchLeavesOthers(stack, Features, SummaryRequest, now, w);
  }
}

=== FILE: storage.dfy ===
/**
 * Origin-scoped key-value storage, one slot per key. A slot's read can fail
 * (the text does not parse as the expected JSON, or the storage refuses the
 * read) and its write can fail (quota exceeded, storage disabled); JSON
 * encoding itself is abstracted away, so a slot holds the decoded value.
 */
module Storage {
  import opened Common
  import opened Transport

  /** One queued request, `{ when, body }`. */
  datatype Entry = Entry(when: int, body: Body)

  /**
   * A queue slot (`mx_queue_v2` or `mx_offline_queue_v1`). An absent key
   * reads as `'[]'`, that is, as `entries == []` with `corrupt` false.
   */
  datatype QueueState = QueueState(entries: seq<Entry>, corrupt: bool, full: bool)

  /** `JSON.parse(localStorage.getItem(key) || '[]')`: None when it throws. */
  function LoadQueue(s: QueueState): Option<seq<Entry>> {
    if s.corrupt then None else Some(s.entries)
  }

  /** `localStorage.setItem(key, JSON.stringify(q))`; a full slot keeps its old value. */
  function StoreQueue(s: QueueState, q: seq<Entry>): QueueState {
    if s.full then s else QueueState(q, false, false)
  }

  /**
   * The wrapper's guarded read-push-write, every failure swallowed: on a
   * healthy slot exactly `e` is appended after the old entries; on an
   * unreadable or full slot nothing changes.
   */
  function Enqueue(s: QueueState, e: Entry): (t: QueueState)
    ensures !s.corrupt && !s.full ==>
              t == s.(entries := s.entries + [e]) && |t.entries| == |s.entries| + 1 && t.entries[|s.entries|] == e
    ensures s.corrupt || s.full ==> t == s
  {
    match LoadQueue(s)
    case None => s
    case Some(q) => StoreQueue(s, q + [e])
  }

  /** The summary cache slot `mx_summary_cache_v1`; `stored` is None when the key is absent. */
  datatype CacheState = CacheState(stored: Option<Reply>, corrupt: bool, full: bool)

  /** `loadSummaryFromCache`: null (None) when the key is absent or does not parse. */
  function LoadCache(s: CacheState): Option<Reply> {
    if s.corrupt then None else s.stored
  }

  /** The guarded write of `fetchAndCacheSummary`; a failed write is swallowed. */
  function StoreCache(s: CacheState, v: Reply): CacheState {
    if s.full then s else CacheState(Some(v), false, false)
  }

  /** Write-then-read: once a write succeeds, the next load returns the written value. */
  lemma CacheRoundTrip(s: CacheState, v: Reply, u: Reply)
    ensures !s.full ==> LoadCache(StoreCache(s, v)) == Some(v)
    ensures !s.full ==> LoadCache(StoreCache(StoreCache(s, u), v)) == Some(v)
    ensures s.full ==> LoadCache(StoreCache(s, v)) == LoadCache(s)
  {
  }

  /** A queue slot as an object that the wrappers update in place. */
  class QueueSlot {
    var entries: seq<Entry>
    var corrupt: bool
    var full: bool

    function State(): QueueState
      reads this
    {
      QueueState(entries, corrupt, full)
    }

    constructor (s: QueueState)
      ensures State() == s
    {
      entries, corrupt, full := s.entries, s.corrupt, s.full;
    }

    /** Reads and decodes the slot; None when that throws. */
    method Load() returns (q: Option<seq<Entry>>)
      ensures q == LoadQueue(State())
      ensures q.Some? ==> q.value == entries
    {
      if corrupt {
        q := None;
      } else {
        q := Some(entries);
      }
    }

    /** Overwrites the slot with `q`; `ok` is false when `setItem` throws. */
    method Store(q: seq<Entry>) returns (ok: bool)
      modifies this
      ensures ok == !old(full)
      ensures State() == StoreQueue(old(State()), q)
      ensures ok ==> entries == q && !corrupt
    {
      ok := !full;
      if ok {
        entries, corrupt := q, false;
      }
    }

    /** The wrapper's `try { q = parse(...); q.push(e); setItem(...) } catch (_) {}`. */
    method TryEnqueue(e: Entry)
      modifies this
      ensures State() == Enqueue(old(State()), e)
    {
      var q := Load();
      if q.Some? {
        var _ := Store(q.value + [e]);
      }
    }
  }

  /** The summary cache slot as an object. */
  class SummarySlot {
    var stored: Option<Reply>
    var corrupt: bool
    var full: bool

    function State(): CacheState
      reads this
    {
      CacheState(stored, corrupt, full)
    }

    constructor (s: CacheState)
      ensures State() == s
    {
      stored, corrupt, full := s.stored, s.corrupt, s.full;
    }

    /** `loadSummaryFromCache()`: the cached reply, or None for an absent or unparsable slot. */
    method LoadSummaryFromCache() returns (r: Option<Reply>)
      ensures r == LoadCache(State())
      ensures corrupt || stored.None? ==> r.None?
      ensures r.Some? ==> Some(r.value) == stored
    {
      if corrupt {
        r := None;
      } else {
        r := stored;
      }
    }

    /** `try { localStorage.setItem(key, JSON.stringify(v)) } catch (_) {}`. */
    method TrySave(v: Reply)
      modifies this
      ensures State() == StoreCache(old(State()), v)
    {
      if !full {
        stored, corrupt := Some(v), false;
      }
    }
  }
}

=== FILE: transport.dfy ===
/**
 * The request/response boundary to the remote service: the `apiPost`
 * function of the main page script, seen from the two wrappers.
 *
 * The real transport is an oracle here: a sequence of outcomes, one per
 * call, consumed from the front. A call either answers with a payload or
 * rejects (the promise throws). An exhausted oracle means the service
 * stays unreachable.
 */
module Transport {

  /** A request: `{ action, ...parameters }`. */
  datatype Body = Body(action: string, params: seq<(string, string)>)

  /** The one action that app.extra.js intercepts. */
  predicate IsAddTransaction(b: Body) {
    b.action == "addTransaction"
  }

  /** What a resolved call yields: the synthetic `{ok:true, offline:true}` or a server payload. */
  datatype Reply = OfflineAck | Server(payload: string)

  /** A call resolves with a reply or rejects. */
  datatype Response = Delivered(reply: Reply) | Failed

  /** The oracle's answer to one call. */
  datatype Outcome = Answered(payload: string) | Unreachable

  /** The transport's state: the outcomes still to come and the requests sent so far. */
  datatype Wire = Wire(outcomes: seq<Outcome>, sent: seq<Body>)

  /** True when the next call on `w` will reject. */
  predicate NextFails(w: Wire) {
    w.outcomes == [] || w.outcomes[0].Unreachable?
  }

  /** The transport after one more call: one outcome consumed, the body logged. */
  function Consume(w: Wire, body: Body): Wire
  {
    Wire(if w.outcomes == [] then [] else w.outcomes[1..], w.sent + [body])
  }

  /** One call: forwards `body` unchanged and answers as the oracle says. */
  function Call(w: Wire, body: Body): (Response, Wire)
  {
    if NextFails(w) then (Failed, Consume(w, body))
    else (Delivered(Server(w.outcomes[0].payload)), Consume(w, body))
  }

  /** The transport as an object whose state each call advances. */
  class Network {
    var outcomes: seq<Outcome>
    var sent: seq<Body>

    function State(): Wire
      reads this
    {
      Wire(outcomes, sent)
    }

    constructor (w: Wire)
      ensures State() == w
    {
      outcomes, sent := w.outcomes, w.sent;
    }

    /** `_apiPost(body)` of the page's own script. */
    method Post(body: Body) returns (r: Response)
      modifies this
      ensures (r, State()) == Call(old(State()), body)
      ensures r.Delivered? <==> !NextFails(old(State()))
    {
      if outcomes == [] || outcomes[0].Unreachable? {
        r := Failed;
      } else {
        r := Delivered(Server(outcomes[0].payload));
      }
      sent := sent + [body];
      if outcomes != [] {
        outcomes := outcomes[1..];
      }
    }
  }
}

=== FILE: tx_filter.dfy ===
/**
 * The transaction filter of the transactions tab (`loadFiltered` in
 * app.extra.js): a free-text search in the note, a category, and a date
 * range. Timestamps are milliseconds since the epoch; the date inputs are
 * taken as already converted to such bounds (the upper one to the last
 * second of its day).
 */
module TxFilter {
  import opened Common

  /**
   * A transaction row as the server lists it; a missing note is the empty
   * string. `timestamp` is the epoch milliseconds `new Date(r.timestamp)`
   * stands for: `None` is a timestamp that is absent or empty, for which
   * that date is invalid; a `null` timestamp is the epoch, `Some(0)`.
   */
  datatype Tx = Tx(timestamp: Option<int>, kind: string, category: string, amount: string, note: string)

  /** The raw values of the search box, the category select and the two date inputs. */
  datatype Criteria = Criteria(query: string, category: string, from: Option<int>, to: Option<int>)

  /** The characters `String.prototype.trim` removes: white space and line terminators. */
  predicate IsSpace(c: char) {
    var n := c as int;
    n == 0x20 || (0x09 <= n <= 0x0D) || n == 0xA0 || n == 0x1680 || (0x2000 <= n <= 0x200A)
    || n == 0x2028 || n == 0x2029 || n == 0x202F || n == 0x205F || n == 0x3000 || n == 0xFEFF
  }

  function TrimStart(s: string): (t: string)
    ensures |t| <= |s|
    ensures t == s[|s| - |t|..]
    ensures t == "" || !IsSpace(t[0])
    ensures forall i :: 0 <= i < |s| - |t| ==> IsSpace(s[i])
  {
    if s != "" && IsSpace(s[0]) then TrimStart(s[1..]) else s
  }

  function TrimEnd(s: string): (t: string)
    ensures |t| <= |s|
    ensures t == s[..|t|]
    ensures t == "" || !IsSpace(t[|t| - 1])
    ensures forall i :: |t| <= i < |s| ==> IsSpace(s[i])
  {
    if s != "" && IsSpace(s[|s| - 1]) then TrimEnd(s[..|s| - 1]) else s
  }

  /** `s.trim()`: the longest slice of `s` that neither starts nor ends with white space. */
  function Trim(s: string): string {
    TrimEnd(TrimStart(s))
  }

  /** `toLowerCase` on the ASCII letters; every other character is kept. */
  function LowerChar(c: char): char {
    if 'A' <= c <= 'Z' then (c as int + 32) as char else c
  }

  /**
   * `toLowerCase` on ASCII: the result has the same length, holds no
   * capital letter, and differs from `s` exactly at its capitals, each
   * replaced by the matching small letter.
   */
  function Lower(s: string): (t: string)
    ensures |t| == |s|
    ensures forall i :: 0 <= i < |t| ==> !('A' <= t[i] <= 'Z')
    ensures forall i :: 0 <= i < |s| ==> (t[i] != s[i] <==> 'A' <= s[i] <= 'Z')
    ensures forall i :: 0 <= i < |s| && 'A' <= s[i] <= 'Z' ==> t[i] as int == s[i] as int + 32
  {
    seq(|s|, i requires 0 <= i < |s| => LowerChar(s[i]))
  }

  /** Lower-casing twice is lower-casing once. */
  lemma LowerIdempotent(s: string)
    ensures Lower(Lower(s)) == Lower(s)
  {
  }

  predicate StartsWith(s: string, p: string) {
    |p| <= |s| && s[..|p|] == p
  }

  /** `s.includes(p)`, as a left-to-right search. */
  predicate Includes(s: string, p: string)
    decreases |s|
  {
    StartsWith(s, p) || (s != "" && Includes(s[1..], p))
  }

  /** `p` occurs in `s` starting at index `i`. */
  predicate OccursAt(s: string, p: string, i: int) {
    0 <= i <= |s| - |p| && s[i..i + |p|] == p
  }

  /** The search finds `p` exactly when `p` occurs somewhere in `s`. */
  lemma {:induction false} IncludesIff(s: string, p: string)
    ensures Includes(s, p) <==> exists i :: OccursAt(s, p, i)
    decreases |s|
  {
    if StartsWith(s, p) {
      assert OccursAt(s, p, 0);
    }
    if s == "" {
      if exists i :: OccursAt(s, p, i) {
        var i :| OccursAt(s, p, i);
        assert StartsWith(s, p);
      }
    } else {
      IncludesIff(s[1..], p);
      if exists i :: OccursAt(s, p, i) {
        var i :| OccursAt(s, p, i);
        if i > 0 {
          assert s[1..][i - 1..i - 1 + |p|] == s[i..i + |p|];
          assert OccursAt(s[1..], p, i - 1);
        } else {
          assert StartsWith(s, p);
        }
      }
      if Includes(s[1..], p) {
        var j :| OccursAt(s[1..], p, j);
        assert s[1..][j..j + |p|] == s[j + 1..j + 1 + |p|];
        assert OccursAt(s, p, j + 1);
      }
    }
  }

  /** A date bound counts only when it is truthy: set and not the epoch itself. */
  predicate Active(b: Option<int>) {
    b.Some? && b.value != 0
  }

  /** `r.timestamp ? new Date(r.timestamp).getTime() : 0`. */
  function Stamp(r: Tx): int {
    match r.timestamp
    case None => 0
    case Some(t) => t
  }

  /** The predicate passed to `rows.filter`. */
  predicate Matches(c: Criteria, r: Tx)
    ensures Trim(c.query) == "" && Trim(c.category) == "" && !Active(c.from) && !Active(c.to) ==> Matches(c, r)
    ensures Matches(c, r) && Active(c.from) && Active(c.to) ==> c.from.value <= c.to.value
    ensures r.timestamp.None? && Active(c.from) && c.from.value > 0 ==> !Matches(c, r)
  {
    var qv := Lower(Trim(c.query));
    var cv := Trim(c.category);
    && (qv == "" || Includes(Lower(r.note), qv))
    && (cv == "" || r.category == cv)
    && (!Active(c.from) || Stamp(r) >= c.from.value)
    && (!Active(c.to) || Stamp(r) <= c.to.value)
  }

  /**
   * `rows.filter(...)`: the rows that match, in their original order; every
   * kept row matches and every matching row is kept.
   */
  function Filter(rows: seq<Tx>, c: Criteria): (kept: seq<Tx>)
    ensures IsSubsequence(kept, rows)
    ensures forall i :: 0 <= i < |kept| ==> Matches(c, kept[i])
    ensures forall i :: 0 <= i < |rows| && Matches(c, rows[i]) ==> rows[i] in kept
  {
    Select(rows, r => Matches(c, r))
  }

  /** Filtering never reorders rows: it commutes with concatenation. */
  lemma FilterAppend(a: seq<Tx>, b: seq<Tx>, c: Criteria)
    ensures Filter(a + b, c) == Filter(a, c) + Filter(b, c)
  {
    SelectAppend(a, b, r => Matches(c, r));
  }

  /** Blank search, blank category and no (truthy) date bound keep every row. */
  lemma NoCriteriaKeepsAll(rows: seq<Tx>, c: Criteria)
    requires Trim(c.query) == "" && Trim(c.category) == ""
    requires !Active(c.from) && !Active(c.to)
    ensures Filter(rows, c) == rows
  {
    forall i | 0 <= i < |rows| ensures Matches(c, rows[i]) {
      BlankMatches(c, rows[i]);
    }
    SelectAll(rows, r => Matches(c, r));
  }

  lemma BlankMatches(c: Criteria, r: Tx)
    requires Trim(c.query) == "" && Trim(c.category) == ""
    requires !Active(c.from) && !Active(c.to)
    ensures Matches(c, r)
  {
  }

  /**
   * A search term matches regardless of the letter case of the note or of
   * the query, and surrounding white space in the query is ignored.
   */
  lemma SearchIgnoresCase(c: Criteria, r: Tx, i: nat)
    requires Trim(c.query) != ""
    requires i + |Trim(c.query)| <= |r.note|
    requires Lower(r.note[i..i + |Trim(c.query)|]) == Lower(Trim(c.query))
    ensures Includes(Lower(r.note), Lower(Trim(c.query)))
  {
    FoundIgnoringCase(r.note, Trim(c.query), i);
  }

  /** A slice of `s` equal to `q` up to letter case makes the search for `q` succeed. */
  lemma FoundIgnoringCase(s: string, q: string, i: nat)
    requires i + |q| <= |s|
    requires Lower(s[i..i + |q|]) == Lower(q)
    ensures Includes(Lower(s), Lower(q))
  {
    LowerSlice(s, i, i + |q|);
    assert OccursAt(Lower(s), Lower(q), i);
    IncludesIff(Lower(s), Lower(q));
  }

  /** Lower-casing commutes with slicing. */
  lemma LowerSlice(s: string, i: nat, j: nat)
    requires i <= j <= |s|
    ensures Lower(s)[i..j] == Lower(s[i..j])
  {
    assert forall k :: 0 <= k < j - i ==> Lower(s)[i..j][k] == LowerChar(s[i + k]) == Lower(s[i..j])[k];
  }
}
